=== FILE: README.md ===
# Expat board front-end: a Dafny model of its page logic

This project models the logic behind four parts of a community web
front-end built on a hosted backend (authentication, table store, realtime
channels, file storage):

- **the room chat** (`src/app/chat/page.tsx`). The page is a state machine
  over the events it reacts to:
  - a room tab is clicked;
  - the history query answers;
  - a realtime channel pushes an inserted row;
  - the session lookup answers;
  - the input changes;
  - the form is submitted;
  - an insert answers;
  - the page unmounts.

  The room effect's `mounted` flag becomes an *epoch*: each run of the
  effect has its own number, and the cleanup moves it on. The backend calls
  the page makes (history query, subscribe, remove channel, `getUser`,
  insert, toast) are recorded as effects. Module `ChatFeed` holds one
  transition per event and `Step`. Module `ChatRuns` proves properties of
  whole event sequences: which channels are open, stale answers being
  dropped, and the order of the history.
- **the two submit pipelines** (`addJob` in `src/app/jobs/page.tsx`,
  `onSubmit` in `src/app/logement/page.tsx`) and their `load`. Each is a pure
  function from the form, the `getUser` answer, the clock, the storage
  service and the insert's error to the calls issued, the notices raised and
  the form afterwards. The shared steps live in `Pipeline`: the sign-in
  gate, the optional upload, the insert and reset, and the list load.
- **`uploadImage`** (`src/lib/upload.ts`), in module `Upload`. It covers
  `split(".").pop() || "jpg"`, modelled through a `Split`/`Join` pair with a
  proved round trip. It also covers the decimal rendering of `Date.now()`,
  the object path, and the two storage calls.
- **the toast list** (`src/components/ui/use-toast.tsx`), in module
  `Toasts`: `toast`, `remove` and `useToast`. It also covers which provider's
  list the toaster reads, given how the layout nests the providers. The pages'
  "notices" are calls to `toast`; whether a user ever sees them is the subject
  of the finding below.

`Text` models `String.prototype.trim` with the ECMAScript white-space and
line-terminator characters. `Common` holds the shared values: optional
values, call results, notices, the user record, the `user?.id` test, and
`field || null`.

Outside input is a parameter of the operation that uses it:
- what `getUser` returns;
- the storage service, i.e. whether its upload fails and the public URL it
  gives for a path;
- the error of an insert;
- the rows or the error of a query;
- the `Date.now()` reading;
- the number the browser reads from the price field.

Behaviour of the code that a quick reading of the pages can miss:
- A room switch does not clear the messages. The previous room's messages
  stay on screen until the new room's history answers. If that query fails,
  they stay there under the new room, with the new room's channel
  subscribed (`ChatRuns.FailedFetchKeepsPreviousMessages`).
- The history is not reversed. It is sorted by creation time with a stable
  comparison sort, which equals a reversal when the times are all
  different (`ChatRuns.DescendingHistorySortsToReverse`,
  `ChatRuns.TiesKeepQueryOrder`).
- A failed send puts back the trimmed text, not what was typed.
- A send without a user still calls `getUser`; only the insert is skipped.

## Model

| member | source | states |
|---|---|---|
| Common.SignedInId | src/app/jobs/page.tsx:58-60 | `user?.id` then `if (!user_id)`: an id is usable exactly when a user is present and the id is not empty. |
| Common.NullIfEmpty | src/app/jobs/page.tsx:78-82 | `field \|\| null`: reading the stored value back (null as `""`) gives the field, and `""` is never stored. |
| Text.Trim | src/app/chat/page.tsx:106-107 | `input.trim()`: nothing is left exactly when the input is all white space, and what is left starts and ends with a non-space character. |
| Text.TrimIsSlice | src/app/chat/page.tsx:106 | The trimmed text is a contiguous slice of the input with only white space cut on either side. |
| Text.AllSpaceEveryChar | src/app/chat/page.tsx:107 | The blank test used for `if (!text) return` holds exactly when every character is white space. |
| Text.AllSpaceConcat | src/app/chat/page.tsx:106 | A concatenation is blank exactly when both parts are. |
| Toasts.Toast | src/components/ui/use-toast.tsx:22-24 | `toast` adds exactly one message at the end, stamped with the clock reading and carrying the given title and description; earlier ones are unchanged. |
| Toasts.Remove | src/components/ui/use-toast.tsx:26-28 | `remove(id)`: a message survives exactly when its id differs, and the length drops by the number of messages carrying the id. |
| Toasts.RemoveOne | src/components/ui/use-toast.tsx:27 | On one message the filter keeps it exactly when its id differs. |
| Toasts.RemoveDistributes | src/components/ui/use-toast.tsx:27 | The filter works piece by piece over a concatenation, so survivors keep their order. |
| Toasts.RemoveAbsent | src/components/ui/use-toast.tsx:27 | Removing an id no message carries leaves the list unchanged. |
| Toasts.RemoveIdempotent | src/components/ui/use-toast.tsx:27 | Removing an id twice is removing it once. |
| Toasts.RemoveUndoesToast | src/components/ui/use-toast.tsx:22-28 | Closing a toast undoes raising it when no earlier toast has the same millisecond. |
| Toasts.SameMillisecondToastsCloseTogether | src/components/ui/use-toast.tsx:23 | Two toasts raised in the same millisecond share their id, so closing one closes both. |
| Toasts.RaiseAll | src/components/ui/use-toast.tsx:22-24 | Toasts raised from a component go, in order, to the end of the nearest provider's list; every other provider's list is untouched. |
| Toasts.Nearest | src/components/ui/use-toast.tsx:37-40 | `useContext` reads the innermost enclosing provider, the last of the path. There is one exactly when some provider encloses the caller. |
| Toasts.ToasterShowsNoPageNotice | src/components/ui/toaster.tsx:26-33 | As mounted by the layout, the toaster reads a provider of its own that nothing raises into: it renders nothing the pages raise, and the pages' list only grows. |
| Toasts.ToasterShowsPageNotices | src/components/ui/toaster.tsx:8-9 | A toaster reading the layout's provider renders every notice the pages raise, in order. |
| Toasts.UseToast | src/components/ui/use-toast.tsx:37-40 | Outside a provider the call fails with the fixed message; inside, it returns the provider's value. |
| Upload.Split | src/lib/upload.ts:12 | `split(sep)` gives at least one piece, no piece holds the separator, and joining the pieces gives the string back. |
| Upload.SplitJoin | src/lib/upload.ts:12 | The other round trip: separator-free pieces come back from splitting their join. |
| Upload.LastPartIsAfterLastDot | src/lib/upload.ts:12 | `pop()` gives the suffix after the last dot, with no dot in it, or the whole name when it has no dot. |
| Upload.AfterLastDotIsLastPart | src/lib/upload.ts:12 | When the dot at `i` is the last one, `pop()` gives exactly the text after it. |
| Upload.LastPart | src/lib/upload.ts:12 | `pop()` never contains a dot, and a name without a dot is its own last piece. |
| Upload.Extension | src/lib/upload.ts:12 | The extension is never empty and never contains a dot. |
| Upload.ExtensionAfterLastDot | src/lib/upload.ts:12 | With text after the last dot, the extension is that text. |
| Upload.ExtensionWithoutDot | src/lib/upload.ts:12 | A non-empty name without a dot is its own extension; "jpg" is not used. |
| Upload.ExtensionFallback | src/lib/upload.ts:12 | An empty name, or one ending in a dot, gets "jpg". |
| Upload.DecimalString | src/lib/upload.ts:13 | The timestamp in the path is a non-empty string of digits with no leading zero. |
| Upload.DecimalRoundTrip | src/lib/upload.ts:13 | The timestamp can be read back from those digits. |
| Upload.ObjectPath | src/lib/upload.ts:13 | The path starts with `folder/userId/` and ends with `.` and the file's extension. |
| Upload.ObjectPathParts | src/lib/upload.ts:13 | For a user id and file name without `/`, the path splits at `/` into the folder, the user id, and `timestamp.ext`. |
| Upload.ObjectPathKeepsExtension | src/lib/upload.ts:12-13 | The stored path has the same extension as the file. |
| Upload.UploadImage | src/lib/upload.ts:7-23 | The upload goes to bucket "public" under the built path with the file's type and no overwrite. A storage error is thrown and no URL is asked for. Otherwise the public URL of that same path is returned. |
| Pipeline.Prepare | src/app/jobs/page.tsx:58-73 | Without a user id, a sign-in notice before any upload. With no file, no upload and a null image. A failed upload stops with its message, or "Upload impossible" when that is empty. A successful one gives the public URL of the stored path. |
| Pipeline.UploadFailed | src/app/jobs/page.tsx:70 | The failed-upload notice carries the error's message, or "Upload impossible" exactly when that message is empty; it is never blank. |
| Pipeline.RevokePreview | src/app/jobs/page.tsx:93 | The preview URL is released exactly when there is a non-empty one, and then only that URL. |
| Pipeline.Halted | src/app/jobs/page.tsx:60-72 | A stopped submission keeps the form and makes no insert and no reload. Its calls are exactly `getUser` followed by the storage calls made before it stopped. |
| Pipeline.Finish | src/app/jobs/page.tsx:75-94 | The calls open with `getUser`, the upload's calls and the one insert of the row, with no storage call after the upload. An error keeps the form, raises the error as a notice (calls `toast`) and issues nothing more. Success clears the form and raises the success notice. The calls then end with the preview URL's release (when there is one) and the one reload. |
| Pipeline.AttemptShape | src/app/jobs/page.tsx:60-94 | Whatever follows the insert, if it holds no insert, no storage call and at most one reload, the whole submission has one insert, at most one reload, and the upload's calls right after `getUser`. |
| Pipeline.StartLoad | src/app/jobs/page.tsx:46 | `load` raises the loading flag and keeps the list. |
| Pipeline.FinishLoad | src/app/jobs/page.tsx:47-53 | The list becomes the returned rows, or `[]` when none come back, even on error. Loading ends. An error raises exactly one notice. |
| Jobs.NewJobRow | src/app/jobs/page.tsx:75-84 | The row carries the user id, the title as typed and the image URL; every optional field reads back as the form's text and is never stored as `""`. |
| Jobs.AddJob | src/app/jobs/page.tsx:56-95 | Without a user id, only the notice. Without a file, no storage call. A failed upload raises exactly its notice. The insert happens exactly when the user is known and any upload succeeded. The row holds the title verbatim and each optional field null when empty, with the image URL iff a file was given. An insert error keeps the form and skips the reload. Success empties the form and reloads last. |
| Jobs.AddJobUploadsFirst | src/app/jobs/page.tsx:58-73 | With a user id and a file, `addJob` issues `getUser`, then exactly `uploadImage`'s calls into `jobs`, and no storage call after them. |
| Jobs.AddJobCalls | src/app/jobs/page.tsx:56-95 | `addJob` inserts at most once and reloads at most once. On success with a preview it releases that preview URL. |
| Jobs.StoredFieldsReadBack | src/app/jobs/page.tsx:76-83 | Every optional field of the inserted row reads back as the form's text, and `""` is never stored. |
| Jobs.LoadJobs | src/app/jobs/page.tsx:45-54 | `setLoading(true)`, then the jobs list is replaced by the returned rows or `[]` (even on error), and loading ends. |
| Logement.PriceInput | src/app/logement/page.tsx:115 | An empty price input is kept as `''`, any other as the number read from it. |
| Logement.PriceWeek | src/app/logement/page.tsx:77 | `price_week` is null exactly for `''`, otherwise the number itself. |
| Logement.EmptyPriceIsNull | src/app/logement/page.tsx:77 | An empty input is stored as null, not as 0, and a typed 0 is stored as 0. |
| Logement.NewListingRow | src/app/logement/page.tsx:73-81 | The row carries the user id, the title and the image URL; city, contact and description read back as typed and are never `""`; `price_week` is null exactly for a blank price. |
| Logement.Submit | src/app/logement/page.tsx:54-92 | The same guarantees as `AddJob` for listings, with the price rule on `price_week`. |
| Logement.SubmitUploadsFirst | src/app/logement/page.tsx:56-71 | With a user id and a file, `onSubmit` issues `getUser`, then exactly `uploadImage`'s calls into `listings`, and no storage call after them. |
| Logement.SubmitCalls | src/app/logement/page.tsx:54-92 | `onSubmit` inserts at most once and reloads at most once. On success with a preview it releases that preview URL. |
| Logement.LoadListings | src/app/logement/page.tsx:43-52 | `setLoading(true)`, then the listings are replaced by the returned rows or `[]` (even on error), and loading ends. |
| ChatFeed.Mine | src/app/chat/page.tsx:169 | `m.user_id === me?.id`: no message is one's own while no user is known; with a user, exactly the messages carrying its id are. |
| ChatFeed.ComposerEnabled | src/app/chat/page.tsx:200-202 | `disabled={!me \|\| sending}`: the composer is disabled while an insert is pending or no user is known, and enabled otherwise. |
| ChatFeed.Teardown | src/app/chat/page.tsx:98-101 | The cleanup removes the run's channel exactly when the run got one, and makes no other call. |
| ChatFeed.Step | src/app/chat/page.tsx:33-202 | Once unmounted the page stays unmounted, and only unmounting takes it there; no event moves the epoch back; an unmounted page keeps its room and messages. |
| ChatFeed.AuthorName | src/app/chat/page.tsx:115-118 | `name \|\| email \|\| "Anonyme"`: an empty name falls through to the e-mail, then to the fixed label; the result is never empty. |
| ChatFeed.InsertByTime | src/app/chat/page.tsx:78-80 | Inserting into a time-sorted list keeps it sorted and adds exactly that row. |
| ChatFeed.SortByTime | src/app/chat/page.tsx:78-80 | The sorted history is in non-decreasing time order and is a permutation of the fetched rows. |
| ChatFeed.Init | src/app/chat/page.tsx:33-71 | The page starts in room "general" with no messages, an empty input, nothing being sent, no user and no pending insert; `getUser` and the first history query go out. |
| ChatFeed.OnSwitchRoom | src/app/chat/page.tsx:60-102 | Choosing the shown room changes nothing. Another room removes the live channel, if any, moves to a new epoch and sends that room's query for 100 rows. Messages are kept. |
| ChatFeed.OnFetchResolved | src/app/chat/page.tsx:73-95 | A stale answer is dropped with no call. A current error raises a notice, keeps the messages and still subscribes. Current rows replace the messages, sorted, then subscribe. The subscription is to `chat:<room>` filtered on `room=eq.<room>`. |
| ChatFeed.OnLiveInsert | src/app/chat/page.tsx:87-95 | A row on the current run's channel is appended at the end, with earlier messages unchanged and no dedup. Any other channel changes nothing. |
| ChatFeed.OnSessionResolved | src/app/chat/page.tsx:47-57 | `me` is set, with the fallback name, only for a user with an id and only while the page is mounted. |
| ChatFeed.OnType | src/app/chat/page.tsx:199 | The input takes the typed text. |
| ChatFeed.OnSend | src/app/chat/page.tsx:104-128 | Blank text does nothing at all. Without a user id: `getUser` and the notice, state unchanged. Otherwise the trimmed, non-empty text is inserted in the current room under the author name, `sending` is set, the input cleared, and the composer disabled. |
| ChatFeed.OnSendResolved | src/app/chat/page.tsx:130-136 | The pending insert is settled and `sending` cleared. An error restores the trimmed text and raises a notice. Success adds no message. |
| ChatFeed.OnUnmount | src/app/chat/page.tsx:98-101 | Unmounting ends the run with a newer epoch, changes nothing else, and removes the run's channel exactly when it is live; it makes no other call. |
| ChatRuns.BootKeepsInv | src/app/chat/page.tsx:60-102 | After any events from the first render, exactly the current run's channel is open while live and none otherwise, and `sending` means an insert is pending. |
| ChatRuns.RunKeepsInv | src/app/chat/page.tsx:60-102 | Every sequence of events preserves that invariant. |
| ChatRuns.StepKeepsInv | src/app/chat/page.tsx:60-137 | Every single event preserves it. |
| ChatRuns.LiveRowShownIffChannelOpen | src/app/chat/page.tsx:85-100 | After any events, a pushed row is shown exactly when its channel is open, and then it is appended. |
| ChatRuns.BootStaysInRooms | src/app/chat/page.tsx:19-33 | With only the room tabs to click, the room is always one of the ten fixed rooms. |
| ChatRuns.RunStaysInRooms | src/app/chat/page.tsx:19-30 | The room stays among the fixed rooms along any allowed events. |
| ChatRuns.EpochNeverDecreases | src/app/chat/page.tsx:61 | The epoch never goes back. |
| ChatRuns.SubscriptionsAreNotOlder | src/app/chat/page.tsx:85-95 | A channel subscribed during a run belongs to the starting epoch or a later one. |
| ChatRuns.SwitchedAwayFetchIsDropped | src/app/chat/page.tsx:73 | After a switch away from a loading room, whatever happens next, that room's history answer changes nothing and no channel of that run is ever subscribed. |
| ChatRuns.FailedFetchKeepsPreviousMessages | src/app/chat/page.tsx:75-95 | After a switch, a failed history load leaves the previous room's messages under the new room, with a notice and the new room's channel. |
| ChatRuns.SentMessageShownOnceFromChannel | src/app/chat/page.tsx:120-136 | A successful send adds nothing locally and clears `sending` and the input. The row appears once, when the channel pushes it. |
| ChatRuns.DescendingHistorySortsToReverse | src/app/chat/page.tsx:70-80 | Rows returned newest first with distinct times are shown in reverse order. |
| ChatRuns.TiesKeepQueryOrder | src/app/chat/page.tsx:78-80 | Rows with equal times keep the query's order, which a reversal would not. |
| ChatRuns.SortIsStable | src/app/chat/page.tsx:78-80 | For every time, the rows created at that time appear in the sorted history in the order the query returned them. |
| ChatRuns.InsertByTimeAtTime | src/app/chat/page.tsx:78-80 | Inserting a row puts it before every row of its own time and leaves the order of the others alone. |
| ChatRuns.SendingKeepsInputEmpty | src/app/chat/page.tsx:120-136 | From the first render, along the model's events that the enabled composer allows (a send is one step, see Left out), `sending` is set exactly while an insert is in flight. There is then at most one, and the input is empty meanwhile. |
| ChatRuns.RunClearsInput | src/app/chat/page.tsx:120-136 | Any sequence of the model's events that the enabled composer allows keeps that: `sending` exactly while one insert is pending, with an empty input. |
| ChatRuns.StepClearsInput | src/app/chat/page.tsx:120-202 | Each allowed event keeps it; typing and sending need the composer enabled. |
| ChatRuns.UnguardedTypingRefillsInput | src/app/chat/page.tsx:199-202 | The composer's guard matters: typing during a pending insert would refill the input, and that sequence is not one the page allows. |
| ChatRuns.NothingMineUntilSignedIn | src/app/chat/page.tsx:47-57 | Until the session lookup answers with a user id, no message is shown as one's own, whatever else happens (`m.user_id === me?.id` at line 169). |
| ChatRuns.RunKeepsAnonymous | src/app/chat/page.tsx:37 | `me` stays null along any events without a session answer carrying an id. |
| ChatRuns.OwnSentRowIsMine | src/app/chat/page.tsx:55 | Once the session names a user, a row carrying the user id that user's send inserts is shown as one's own (line 169). |
| ChatRuns.SortExample | src/app/chat/page.tsx:78-80 | Rows at 10:00, 10:05 and 10:02 are shown 10:00, 10:02, 10:05. |

## Findings

| source | as written | input that shows it | evidently intended | confidence | as-written member | corrected member |
|---|---|---|---|---|---|---|
| src/components/ui/toaster.tsx:26-33 | `Toaster` wraps `ToasterInner` in its own `ToastProviderInternal`. The layout (src/app/layout.tsx:19-29) already encloses the pages and the toaster in one. So `useToast()` in `ToasterInner` reads the inner, always-empty list. | Any notice a page raises, e.g. a chat send without a signed-in user: it goes to the layout's list, which nothing renders and nothing removes from. | The toaster reads the layout's provider and renders the pages' notices. Its Close button then removes them (`Toasts.RemoveUndoesToast`). | high; not executed | Toasts.ToasterShowsNoPageNotice | Toasts.ToasterShowsPageNotices |

## Left out

- Rendering: JSX, auto-scroll, `toLocaleString`/`toLocaleTimeString`, and the room label lookup.
- The backend client internals: the realtime channel, the storage API and the query builder. Their answers are parameters or events.
- `created_at` parsing: it is an integer timestamp.
- Real concurrency. Interleavings are explicit event sequences, with the epoch standing in for `mounted`.
- `Date.now()` is a parameter. Its decimal rendering omits the exponent form JavaScript uses from 1e21 on, which a millisecond clock never reaches.
- Logement.PriceInput: the number the browser reads from the price field is an integer parameter, not a float. `NaN` and fractional prices are not modelled.
- ChatFeed.OnType: the transition, like `ChatFeed.OnSend`, is defined in every state of a mounted page, including those where the composer is disabled. The disabled composer is a separate guard (`ChatRuns.Enabled`), and only the `ChatRuns.SendingKeepsInputEmpty` family assumes it.
- ChatFeed.OnLiveInsert: the page's callback appends every row it receives and checks nothing. The transition appends only rows of the current run's channel while it is live, because the realtime client stops delivering on a channel after `removeChannel` and before `subscribe`. That client promise is assumed, not modelled. The "changes nothing" half of `ChatRuns.LiveRowShownIffChannelOpen` rests on it.
- ChatFeed.OnSend: `getUser` and the insert are one step. Between submit and `getUser`'s answer no other event is interleaved.
- ChatRuns.SendingKeepsInputEmpty: holds along the model's events, where a send is one step (`getUser` then the insert). On the page, `sending` is raised only after `getUser` answers (src/app/chat/page.tsx:109, 120-121), and the composer is disabled only by `sending` (src/app/chat/page.tsx:200-202). A second submit while the first `getUser` is pending can therefore start a second insert, so two can be in flight. That interleaving is not modelled.
- ChatRuns.RunClearsInput: the same dependence as `ChatRuns.SendingKeepsInputEmpty`. "At most one insert in flight" holds for the model's one-step send, not for a double submit during the `getUser` wait.
- The drop zone, the navigation, and the login, logout and profile pages: they hold no logic of the modelled parts. The toaster's rendering is not modelled; which provider it reads is (see Findings).
- `src/app/jobs/[id]/page.tsx` and `src/app/logement/[id]/page.tsx`, which are not part of this model.
- Toasts.Toast: the provider's `setToasts` updater form is taken as applied in order. React's batching is not modelled.

=== FILE: chat.dfy ===
/** The room chat (src/app/chat/page.tsx) as a state machine. Every
    asynchronous completion of the page is an event: the answer of the
    history query, a row pushed on the realtime channel, the answers of
    `getUser` and of the insert. The room effect's `mounted` flag becomes an
    epoch: each run of the effect has its own number, and the cleanup of a
    run moves the epoch on, so a completion carrying an older epoch belongs
    to a run whose `mounted` is false. */
module ChatFeed {
  import opened Common
  import opened Text

  /** A row of the `messages` table; `created_at` is taken as a number. */
  datatype Message = Message(id: string, userId: string, username: Option<string>, content: string,
                             room: string, createdAt: int)

  /** The row `sendMessage` inserts. */
  datatype NewMessage = NewMessage(userId: string, username: string, content: string, room: string)

  /** The realtime channel opened by the room effect's run `epoch`. */
  datatype Channel = Channel(room: string, epoch: nat)

  /** Where the current run of the room effect stands: waiting for its
      history, subscribed to its channel, or the page is gone. */
  datatype Phase = Loading | Live | Closed

  /** An insert still waiting for its answer, with the trimmed text it sent. */
  datatype Outgoing = Outgoing(text: string, row: NewMessage)

  /** The signed-in user as the page keeps it in `me`. */
  datatype Me = Me(id: string, username: string)

  datatype State = State(
    room: string,
    epoch: nat,
    phase: Phase,
    messages: seq<Message>,
    input: string,
    sending: bool,
    outbox: seq<Outgoing>,
    me: Option<Me>)

  /** The answer of the history query. */
  datatype FetchResult = Fetched(data: Option<seq<Message>>) | FetchFailed(message: string)

  datatype Event =
    | SwitchRoom(room: string)                        // a room tab is clicked
    | FetchResolved(epoch: nat, result: FetchResult)   // the history query of run `epoch` answers
    | LiveInsert(channel: Channel, message: Message)   // a channel delivers an inserted row
    | SessionResolved(user: Option<User>)              // the `getUser` of the session effect answers
    | Type(text: string)                               // the input changes
    | Send(user: Option<User>)                         // the form is submitted; `getUser` answers `user`
    | SendResolved(index: nat, error: Option<string>)  // the insert `outbox[index]` answers
    | Unmount                                          // the page goes away

  /** A call the page makes into the backend or the notification provider. */
  datatype Effect =
    | FetchHistory(room: string, order: Order, limit: nat)
    | Subscribe(channel: Channel, name: string, filter: string)
    | RemoveChannel(channel: Channel)
    | GetUser
    | InsertMessage(row: NewMessage)
    | Notify(notice: Notice)

  /** The sort order a query asks the store for. */
  datatype Order = Order(column: string, ascending: bool)

  datatype Transition = Transition(state: State, effects: seq<Effect>)

  const RoomKeys: seq<string> :=
    ["general", "sydney", "melbourne", "perth", "brisbane", "adelaide", "goldcoast", "canberra", "hobart", "darwin"]
  const DefaultRoom := "general"
  const HistoryLimit := 100
  /** `.order("created_at", { ascending: false })`: the newest rows first. */
  const NewestFirst := Order("created_at", false)
  const Anonymous := "Anonyme"
  const SignInRequired := Notice("Connexion requise", "Connecte-toi pour envoyer un message.")

  /** The name the realtime channel of a room is opened under. */
  function ChannelName(room: string): string { "chat:" + room }

  /** The row filter of a room's channel. */
  function ChannelFilter(room: string): string { "room=eq." + room }

  /** Subscribing to the inserts of run `epoch`'s room. */
  function SubscribeTo(room: string, epoch: nat): Effect {
    Subscribe(Channel(room, epoch), ChannelName(room), ChannelFilter(room))
  }

  /** `name || email || "Anonyme"`: the first of the name and the e-mail
      that is present and not empty, else the fixed label; never empty. */
  function AuthorName(user: User): (r: string)
    ensures r != ""
    ensures Truthy(user.name) ==> r == user.name.value
    ensures !Truthy(user.name) && Truthy(user.email) ==> r == user.email.value
    ensures !Truthy(user.name) && !Truthy(user.email) ==> r == Anonymous
  {
    if Truthy(user.name) then user.name.value
    else if Truthy(user.email) then user.email.value
    else Anonymous
  }

  /** `m.user_id === me?.id`: a message is shown as one's own only when a
      user is known and wrote it. */
  predicate Mine(m: Message, me: Option<Me>)
    ensures me.None? ==> !Mine(m, me)
    ensures Mine(m, me) ==> m.userId == me.value.id
    ensures me.Some? && m.userId == me.value.id ==> Mine(m, me)
  {
    me.Some? && m.userId == me.value.id
  }

  /** The input and the send button are enabled: `!(!me || sending)`. */
  predicate ComposerEnabled(s: State)
    ensures s.sending ==> !ComposerEnabled(s)
    ensures s.me.None? ==> !ComposerEnabled(s)
    ensures s.me.Some? && !s.sending ==> ComposerEnabled(s)
  {
    s.me.Some? && !s.sending
  }

  predicate SortedByTime(ms: seq<Message>) {
    forall i, j :: 0 <= i < j < |ms| ==> ms[i].createdAt <= ms[j].createdAt
  }

  /** A message no newer than any of a sorted sequence can go in front. */
  lemma PrependSorted(x: Message, rest: seq<Message>)
    requires SortedByTime(rest)
    requires forall j :: 0 <= j < |rest| ==> x.createdAt <= rest[j].createdAt
    ensures SortedByTime([x] + rest)
  {
    var r := [x] + rest;
    forall i, j | 0 <= i < j < |r|
      ensures r[i].createdAt <= r[j].createdAt
    {
      assert r[j] == rest[j - 1];
      if i > 0 {
        assert r[i] == rest[i - 1];
      }
    }
  }

  /** A bound below every row of `tail` and below `m` stays below every row
      of any rearrangement of them with `m` added. */
  lemma BoundBelowAll(bound: int, m: Message, tail: seq<Message>, rest: seq<Message>)
    requires bound <= m.createdAt
    requires forall j :: 0 <= j < |tail| ==> bound <= tail[j].createdAt
    requires multiset(rest) == multiset(tail) + multiset{m}
    ensures forall j :: 0 <= j < |rest| ==> bound <= rest[j].createdAt
  {
    forall j | 0 <= j < |rest|
      ensures bound <= rest[j].createdAt
    {
      assert rest[j] in multiset(rest);
      if rest[j] != m {
        assert rest[j] in multiset(tail);
        var i :| 0 <= i < |tail| && tail[i] == rest[j];
      }
    }
  }

  /** Places `m` before the first message that is not older, so that equal
      times keep `m` first. */
  function InsertByTime(m: Message, sorted: seq<Message>): (r: seq<Message>)
    requires SortedByTime(sorted)
    ensures SortedByTime(r)
    ensures multiset(r) == multiset(sorted) + multiset{m}
    decreases |sorted|
  {
    if sorted == [] || m.createdAt <= sorted[0].createdAt then [m] + sorted
    else
      var head, tail := sorted[0], sorted[1..];
      var rest := InsertByTime(m, tail);
      assert sorted == [head] + tail;
      BoundBelowAll(head.createdAt, m, tail, rest);
      PrependSorted(head, rest);
      [head] + rest
  }

  /** The history's `sort((a, b) => time(a) - time(b))`: a stable sort by
      creation time. The result is in non-decreasing time order and holds
      exactly the fetched rows. */
  function SortByTime(rows: seq<Message>): (r: seq<Message>)
    ensures SortedByTime(r)
    ensures multiset(r) == multiset(rows)
    decreases |rows|
  {
    if rows == [] then []
    else
      assert rows == [rows[0]] + rows[1..];
      InsertByTime(rows[0], SortByTime(rows[1..]))
  }

  /** The page when it first renders: the default room, nothing loaded, and
      the session lookup and the first history query under way. */
  function Init(): (t: Transition)
    ensures t.state.room == DefaultRoom && t.state.room in RoomKeys
    ensures t.state.phase == Loading && t.state.messages == [] && t.state.input == ""
    ensures !t.state.sending && t.state.me.None? && t.state.outbox == []
    ensures t.effects == [GetUser, FetchHistory(DefaultRoom, NewestFirst, HistoryLimit)]
  {
    Transition(State(DefaultRoom, 0, Loading, [], "", false, [], None),
               [GetUser, FetchHistory(DefaultRoom, NewestFirst, HistoryLimit)])
  }

  /** The cleanup of the current run: its channel, if it got one, is
      removed. */
  function Teardown(s: State): (r: seq<Effect>)
    ensures |r| <= 1
    ensures forall k :: 0 <= k < |r| ==> r[k] == RemoveChannel(Channel(s.room, s.epoch))
    ensures r != [] <==> s.phase == Live
  {
    if s.phase == Live then [RemoveChannel(Channel(s.room, s.epoch))] else []
  }

  /** A room tab is clicked. Choosing the room already shown changes
      nothing; another room ends the current run, closing its channel, and
      starts a run with a new epoch whose history query goes out. The
      messages on screen stay until that query answers. */
  function OnSwitchRoom(s: State, r: string): (t: Transition)
    ensures s.phase == Closed || r == s.room ==> t == Transition(s, [])
    ensures s.phase != Closed && r != s.room ==>
              && t.state == s.(room := r, epoch := s.epoch + 1, phase := Loading)
              && t.state.messages == s.messages
              && t.effects == Teardown(s) + [FetchHistory(r, NewestFirst, HistoryLimit)]
              && (s.phase == Live <==> RemoveChannel(Channel(s.room, s.epoch)) in t.effects)
  {
    if s.phase == Closed || r == s.room then Transition(s, [])
    else
      Transition(s.(room := r, epoch := s.epoch + 1, phase := Loading),
                 Teardown(s) + [FetchHistory(r, NewestFirst, HistoryLimit)])
  }

  /** The history query of run `e` answers. A run whose cleanup has run
      (`!mounted`) drops the answer and opens no channel. Otherwise an error
      is raised as a notice and the messages are left as they were, or the rows replace
      the messages in time order; either way the run's channel is opened. */
  function OnFetchResolved(s: State, e: nat, result: FetchResult): (t: Transition)
    ensures e != s.epoch || s.phase != Loading ==> t == Transition(s, [])
    ensures e == s.epoch && s.phase == Loading ==>
              && t.state.phase == Live
              && t.state == s.(phase := Live, messages := t.state.messages)
              && |t.effects| >= 1 && t.effects[|t.effects| - 1] == SubscribeTo(s.room, s.epoch)
    ensures e == s.epoch && s.phase == Loading && result.FetchFailed? ==>
              && t.state.messages == s.messages
              && t.effects == [Notify(Notice(ErrorTitle, result.message)), SubscribeTo(s.room, s.epoch)]
    ensures e == s.epoch && s.phase == Loading && result.Fetched? ==>
              && SortedByTime(t.state.messages)
              && multiset(t.state.messages) == multiset(result.data.GetOr([]))
              && t.effects == [SubscribeTo(s.room, s.epoch)]
  {
    if e != s.epoch || s.phase != Loading then Transition(s, [])
    else
      var subscribe := SubscribeTo(s.room, s.epoch);
      match result
      case FetchFailed(msg) => Transition(s.(phase := Live), [Notify(Notice(ErrorTitle, msg)), subscribe])
      case Fetched(data) => Transition(s.(phase := Live, messages := SortByTime(data.GetOr([]))), [subscribe])
  }

  /** A row delivered on the current run's channel is appended at the end,
      with no re-sorting and no check for a row already shown; rows from
      any other channel are not delivered, since that channel is closed. */
  function OnLiveInsert(s: State, ch: Channel, m: Message): (t: Transition)
    ensures t.effects == []
    ensures s.phase == Live && ch == Channel(s.room, s.epoch) ==>
              && |t.state.messages| == |s.messages| + 1
              && t.state.messages[..|s.messages|] == s.messages
              && t.state.messages[|s.messages|] == m
              && t.state == s.(messages := t.state.messages)
    ensures !(s.phase == Live && ch == Channel(s.room, s.epoch)) ==> t.state == s
  {
    if s.phase == Live && ch == Channel(s.room, s.epoch) then Transition(s.(messages := s.messages + [m]), [])
    else Transition(s, [])
  }

  /** The session effect's `getUser` answers: `me` is set only for a user
      with an id. */
  function OnSessionResolved(s: State, user: Option<User>): (t: Transition)
    ensures t.effects == []
    ensures s.phase != Closed && SignedInId(user).Some? ==>
              t.state == s.(me := Some(Me(user.value.id, AuthorName(user.value))))
    ensures s.phase == Closed || SignedInId(user).None? ==> t.state == s
  {
    if s.phase != Closed && SignedInId(user).Some? then
      Transition(s.(me := Some(Me(user.value.id, AuthorName(user.value)))), [])
    else Transition(s, [])
  }

  /** The input's `onChange`. */
  function OnType(s: State, text: string): (t: Transition)
    ensures t.effects == []
    ensures s.phase != Closed ==> t.state == s.(input := text)
    ensures s.phase == Closed ==> t.state == s
  {
    if s.phase == Closed then Transition(s, []) else Transition(s.(input := text), [])
  }

  /** `sendMessage` up to its insert, `user` being what `getUser` answers.
      Text that trims to nothing does nothing at all. Without a user id a
      notice is raised and the state is kept, input included. Otherwise the
      trimmed text goes out in the current room under the author name,
      `sending` is set and the input cleared while the insert is pending. */
  function OnSend(s: State, user: Option<User>): (t: Transition)
    ensures s.phase == Closed || AllSpace(s.input) ==> t == Transition(s, [])
    ensures s.phase != Closed && !AllSpace(s.input) && SignedInId(user).None? ==>
              t == Transition(s, [GetUser, Notify(SignInRequired)])
    ensures s.phase != Closed && !AllSpace(s.input) && SignedInId(user).Some? ==>
              var row := NewMessage(user.value.id, AuthorName(user.value), Trim(s.input), s.room);
              && t.effects == [GetUser, InsertMessage(row)]
              && row.content != "" && row.content == Trim(s.input)
              && t.state == s.(sending := true, input := "", outbox := s.outbox + [Outgoing(Trim(s.input), row)])
              && !ComposerEnabled(t.state)
  {
    if s.phase == Closed then Transition(s, [])
    else
      var text := Trim(s.input);
      if text == "" then Transition(s, [])
      else
        match SignedInId(user)
        case None => Transition(s, [GetUser, Notify(SignInRequired)])
        case Some(uid) =>
          var row := NewMessage(uid, AuthorName(user.value), text, s.room);
          Transition(s.(sending := true, input := "", outbox := s.outbox + [Outgoing(text, row)]),
                     [GetUser, InsertMessage(row)])
  }

  /** The pending insert `outbox[k]` answers. `sending` is cleared; on an
      error the trimmed text that was sent is put back in the input and the
      error is raised as a notice; on success nothing is added to the messages, the row
      arriving through the channel instead. Once the page is gone only the
      notice remains. */
  function OnSendResolved(s: State, k: nat, error: Option<string>): (t: Transition)
    ensures k >= |s.outbox| ==> t == Transition(s, [])
    ensures k < |s.outbox| ==>
              && t.state.messages == s.messages
              && t.state.outbox == s.outbox[..k] + s.outbox[k + 1..]
              && t.effects == (if error.Some? then [Notify(Notice(ErrorTitle, error.value))] else [])
    ensures k < |s.outbox| && s.phase != Closed ==>
              && !t.state.sending
              && t.state.input == (if error.Some? then s.outbox[k].text else s.input)
              && t.state == s.(sending := false, input := t.state.input, outbox := t.state.outbox)
    ensures k < |s.outbox| && s.phase == Closed ==> t.state == s.(outbox := t.state.outbox)
  {
    if k >= |s.outbox| then Transition(s, [])
    else
      var rest := s.outbox[..k] + s.outbox[k + 1..];
      var notices := if error.Some? then [Notify(Notice(ErrorTitle, error.value))] else [];
      if s.phase == Closed then Transition(s.(outbox := rest), notices)
      else
        var input := if error.Some? then s.outbox[k].text else s.input;
        Transition(s.(sending := false, input := input, outbox := rest), notices)
  }

  /** The page goes away: the current run's cleanup runs. */
  function OnUnmount(s: State): (t: Transition)
    ensures s.phase == Closed ==> t == Transition(s, [])
    ensures s.phase != Closed ==>
              && t.state.phase == Closed && t.state.epoch > s.epoch
              && t.state == s.(epoch := t.state.epoch, phase := Closed)
    ensures s.phase == Live <==> RemoveChannel(Channel(s.room, s.epoch)) in t.effects
    ensures forall k :: 0 <= k < |t.effects| ==> t.effects[k] == RemoveChannel(Channel(s.room, s.epoch))
  {
    if s.phase == Closed then Transition(s, [])
    else Transition(s.(epoch := s.epoch + 1, phase := Closed), Teardown(s))
  }

  /** One event. Once the page is gone it stays gone, and only unmounting
      takes it there; no event moves the epoch back. */
  function Step(s: State, e: Event): (t: Transition)
    ensures t.state.phase == Closed <==> s.phase == Closed || e.Unmount?
    ensures t.state.epoch >= s.epoch
    ensures s.phase == Closed ==> t.state.room == s.room && t.state.messages == s.messages
  {
    match e
    case SwitchRoom(r) => OnSwitchRoom(s, r)
    case FetchResolved(epoch, result) => OnFetchResolved(s, epoch, result)
    case LiveInsert(ch, m) => OnLiveInsert(s, ch, m)
    case SessionResolved(user) => OnSessionResolved(s, user)
    case Type(text) => OnType(s, text)
    case Send(user) => OnSend(s, user)
    case SendResolved(k, error) => OnSendResolved(s, k, error)
    case Unmount => OnUnmount(s)
  }
}

=== FILE: chat_runs.dfy ===
/** Properties of the chat page over whole sequences of events: the open
    realtime channels, stale history answers, and the order of the history. */
module ChatRuns {
  import opened Common
  import opened ChatFeed

  /** The events from `s` on, one after the other, with every call they
      make in order. */
  function Run(s: State, events: seq<Event>): Transition
    decreases |events|
  {
    if events == [] then Transition(s, [])
    else
      var first := Step(s, events[0]);
      var rest := Run(first.state, events[1..]);
      Transition(rest.state, first.effects + rest.effects)
  }

  /** The page from its first render through `events`. */
  function Boot(events: seq<Event>): Transition
  {
    var init := Init();
    var t := Run(init.state, events);
    Transition(t.state, init.effects + t.effects)
  }

  /** The room tabs only offer the fixed rooms. */
  predicate Allowed(e: Event) {
    e.SwitchRoom? ==> e.room in RoomKeys
  }

  function Track(open: set<Channel>, e: Effect): set<Channel>
  {
    match e
    case Subscribe(c, _, _) => open + {c}
    case RemoveChannel(c) => open - {c}
    case _ => open
  }

  function TrackAll(open: set<Channel>, log: seq<Effect>): set<Channel>
    decreases |log|
  {
    if log == [] then open else TrackAll(Track(open, log[0]), log[1..])
  }

  /** The channels subscribed to and not yet removed, after the calls in
      `log`. */
  function OpenChannels(log: seq<Effect>): set<Channel>
  {
    TrackAll({}, log)
  }

  lemma {:induction false} TrackAllAppend(open: set<Channel>, a: seq<Effect>, b: seq<Effect>)
    ensures TrackAll(open, a + b) == TrackAll(TrackAll(open, a), b)
    decreases |a|
  {
    if a == [] {
      assert a + b == b;
    } else {
      assert (a + b)[0] == a[0];
      assert (a + b)[1..] == a[1..] + b;
      TrackAllAppend(Track(open, a[0]), a[1..], b);
    }
  }

  /** The channel a state expects to be open: its run's channel while it is
      live, none otherwise. */
  function LiveChannels(s: State): set<Channel> {
    if s.phase == Live then {Channel(s.room, s.epoch)} else {}
  }

  /** What holds at every point of a run from the first render, `open`
      being the channels subscribed to and not yet removed: exactly the
      current run's channel is open while it is live and none otherwise,
      and `sending` means an insert is pending. */
  ghost predicate Inv(s: State, open: set<Channel>) {
    && open == LiveChannels(s)
    && (s.phase != Closed && s.sending ==> |s.outbox| > 0)
  }

  /** Calls other than subscribing and removing leave the open channels. */
  predicate Quiet(log: seq<Effect>)
    decreases |log|
  {
    log == [] || (!log[0].Subscribe? && !log[0].RemoveChannel? && Quiet(log[1..]))
  }

  lemma {:induction false} TrackAllQuiet(open: set<Channel>, log: seq<Effect>)
    requires Quiet(log)
    ensures TrackAll(open, log) == open
    decreases |log|
  {
    if log != [] {
      TrackAllQuiet(open, log[1..]);
    }
  }

  lemma TrackOne(open: set<Channel>, e: Effect)
    ensures TrackAll(open, [e]) == Track(open, e)
  {
    assert [e][1..] == [];
  }

  lemma TrackTwo(open: set<Channel>, e: Effect, f: Effect)
    ensures TrackAll(open, [e, f]) == Track(Track(open, e), f)
  {
    assert [e, f][1..] == [f];
    TrackOne(Track(open, e), f);
  }

  /** A room switch closes the live channel, if any, and opens none. */
  lemma SwitchKeepsInv(s: State, open: set<Channel>, r: string)
    requires Inv(s, open)
    ensures var t := Step(s, SwitchRoom(r)); Inv(t.state, TrackAll(open, t.effects))
  {
    var fetch := FetchHistory(r, NewestFirst, HistoryLimit);
    if s.phase != Closed && r != s.room {
      if s.phase == Live {
        TrackTwo(open, RemoveChannel(Channel(s.room, s.epoch)), fetch);
      } else {
        TrackOne(open, fetch);
      }
    }
  }

  /** A current history answer opens exactly the run's channel. */
  lemma FetchKeepsInv(s: State, open: set<Channel>, epoch: nat, result: FetchResult)
    requires Inv(s, open)
    ensures var t := Step(s, FetchResolved(epoch, result)); Inv(t.state, TrackAll(open, t.effects))
  {
    if epoch == s.epoch && s.phase == Loading {
      var sub := SubscribeTo(s.room, s.epoch);
      if result.FetchFailed? {
        TrackTwo(open, Notify(Notice(ErrorTitle, result.message)), sub);
      } else {
        TrackOne(open, sub);
      }
    }
  }

  /** A transition that opens and closes no channel and keeps the run
      keeps the invariant, as long as `sending` still means a pending
      insert. */
  lemma QuietKeepsInv(s: State, open: set<Channel>, t: Transition)
    requires Inv(s, open) && Quiet(t.effects)
    requires t.state.phase == s.phase && t.state.room == s.room && t.state.epoch == s.epoch
    requires t.state.phase != Closed && t.state.sending ==> |t.state.outbox| > 0
    ensures Inv(t.state, TrackAll(open, t.effects))
  {
    TrackAllQuiet(open, t.effects);
  }

  lemma UnmountKeepsInv(s: State, open: set<Channel>)
    requires Inv(s, open)
    ensures var t := Step(s, Unmount); Inv(t.state, TrackAll(open, t.effects))
  {
    if s.phase == Live {
      TrackOne(open, RemoveChannel(Channel(s.room, s.epoch)));
    }
  }

  lemma SendKeepsInv(s: State, open: set<Channel>, user: Option<User>)
    requires Inv(s, open)
    ensures var t := Step(s, Send(user)); Inv(t.state, TrackAll(open, t.effects))
  {
    var t := OnSend(s, user);
    if t.effects != [] {
      assert Quiet(t.effects) by {
        assert t.effects[1..] == [t.effects[1]] && [t.effects[1]][1..] == [];
      }
    }
    QuietKeepsInv(s, open, t);
  }

  lemma SendResolvedKeepsInv(s: State, open: set<Channel>, k: nat, error: Option<string>)
    requires Inv(s, open)
    ensures var t := Step(s, SendResolved(k, error)); Inv(t.state, TrackAll(open, t.effects))
  {
    var t := OnSendResolved(s, k, error);
    if t.effects != [] {
      assert Quiet(t.effects) by {
        assert t.effects[1..] == [];
      }
    }
    QuietKeepsInv(s, open, t);
  }

  lemma StepKeepsInv(s: State, open: set<Channel>, e: Event)
    requires Inv(s, open)
    ensures var t := Step(s, e); Inv(t.state, TrackAll(open, t.effects))
  {
    match e
    case SwitchRoom(r) => SwitchKeepsInv(s, open, r);
    case FetchResolved(epoch, result) => FetchKeepsInv(s, open, epoch, result);
    case Unmount => UnmountKeepsInv(s, open);
    case LiveInsert(ch, m) => QuietKeepsInv(s, open, OnLiveInsert(s, ch, m));
    case SessionResolved(user) => QuietKeepsInv(s, open, OnSessionResolved(s, user));
    case Type(text) => QuietKeepsInv(s, open, OnType(s, text));
    case Send(user) => SendKeepsInv(s, open, user);
    case SendResolved(k, error) => SendResolvedKeepsInv(s, open, k, error);
  }

  /** The invariant holds along any sequence of events. */
  lemma {:induction false} RunKeepsInv(s: State, open: set<Channel>, events: seq<Event>)
    requires Inv(s, open)
    ensures var t := Run(s, events); Inv(t.state, TrackAll(open, t.effects))
    decreases |events|
  {
    if events != [] {
      var first := Step(s, events[0]);
      StepKeepsInv(s, open, events[0]);
      RunKeepsInv(first.state, TrackAll(open, first.effects), events[1..]);
      TrackAllAppend(open, first.effects, Run(first.state, events[1..]).effects);
    }
  }

  /** From the first render on, whatever happens, exactly the current run's
      channel is open while the page is live and none otherwise, and
      `sending` means an insert is pending. */
  lemma BootKeepsInv(events: seq<Event>)
    ensures Inv(Boot(events).state, OpenChannels(Boot(events).effects))
  {
    var init := Init();
    TrackTwo({}, GetUser, FetchHistory(DefaultRoom, NewestFirst, HistoryLimit));
    RunKeepsInv(init.state, {}, events);
    TrackAllAppend({}, init.effects, Run(init.state, events).effects);
  }

  /** After any events from the first render, a row pushed on a channel is
      shown exactly when that channel is open: appended when it is, and
      nothing changes when it is not. */
  lemma LiveRowShownIffChannelOpen(events: seq<Event>, ch: Channel, m: Message)
    ensures var b := Boot(events);
            var t := Step(b.state, LiveInsert(ch, m));
            && (ch in OpenChannels(b.effects) ==> t.state.messages == b.state.messages + [m])
            && (ch !in OpenChannels(b.effects) ==> t.state == b.state)
  {
    BootKeepsInv(events);
  }

  /** One allowed event keeps the room among the fixed rooms. */
  lemma StepStaysInRooms(s: State, e: Event)
    requires s.room in RoomKeys && Allowed(e)
    ensures Step(s, e).state.room in RoomKeys
  {
  }

  /** The room stays one of the fixed rooms along any allowed events. */
  lemma {:induction false} RunStaysInRooms(s: State, events: seq<Event>)
    requires s.room in RoomKeys
    requires forall k :: 0 <= k < |events| ==> Allowed(events[k])
    ensures Run(s, events).state.room in RoomKeys
    decreases |events|
  {
    if events != [] {
      StepStaysInRooms(s, events[0]);
      RunStaysInRooms(Step(s, events[0]).state, events[1..]);
    }
  }

  /** The room stays one of the fixed rooms from the first render on. */
  lemma BootStaysInRooms(events: seq<Event>)
    requires forall k :: 0 <= k < |events| ==> Allowed(events[k])
    ensures Boot(events).state.room in RoomKeys
  {
    RunStaysInRooms(Init().state, events);
  }

  /** One event never moves the epoch back. */
  lemma StepKeepsEpoch(s: State, e: Event)
    ensures Step(s, e).state.epoch >= s.epoch
  {
  }

  /** The epoch never goes back. */
  lemma {:induction false} EpochNeverDecreases(s: State, events: seq<Event>)
    ensures Run(s, events).state.epoch >= s.epoch
    decreases |events|
  {
    if events != [] {
      StepKeepsEpoch(s, events[0]);
      EpochNeverDecreases(Step(s, events[0]).state, events[1..]);
    }
  }

  /** Every channel `log` subscribes to belongs to run `epoch` or a later
      one. */
  predicate SubscribesFrom(log: seq<Effect>, epoch: nat) {
    forall k :: 0 <= k < |log| && log[k].Subscribe? ==> log[k].channel.epoch >= epoch
  }

  lemma SubscribesFromConcat(a: seq<Effect>, b: seq<Effect>, epoch: nat)
    requires SubscribesFrom(a, epoch) && SubscribesFrom(b, epoch)
    ensures SubscribesFrom(a + b, epoch)
  {
    forall k | 0 <= k < |a + b| && (a + b)[k].Subscribe?
      ensures (a + b)[k].channel.epoch >= epoch
    {
      if k < |a| {
        assert (a + b)[k] == a[k];
      } else {
        assert (a + b)[k] == b[k - |a|];
      }
    }
  }

  /** The only channel a step opens is the one of the run it is in. */
  lemma StepSubscribesCurrent(s: State, e: Event)
    ensures var log := Step(s, e).effects;
            forall k :: 0 <= k < |log| && log[k].Subscribe? ==> log[k].channel.epoch == s.epoch
  {
    match e
    case FetchResolved(epoch, result) =>
    case SwitchRoom(r) =>
    case _ =>
  }

  /** A channel opened during a run belongs to an epoch at least the one
      the run started from. */
  lemma {:induction false} SubscriptionsAreNotOlder(s: State, events: seq<Event>)
    ensures SubscribesFrom(Run(s, events).effects, s.epoch)
    decreases |events|
  {
    if events != [] {
      var first := Step(s, events[0]);
      StepSubscribesCurrent(s, events[0]);
      StepKeepsEpoch(s, events[0]);
      SubscriptionsAreNotOlder(first.state, events[1..]);
      SubscribesFromConcat(first.effects, Run(first.state, events[1..]).effects, s.epoch);
    }
  }

  /** Once the room has changed while its history was loading, whatever
      happens next, that history's answer is dropped when it comes: no
      change, no call, and no channel is ever opened for that run. */
  lemma SwitchedAwayFetchIsDropped(s: State, r: string, events: seq<Event>, result: FetchResult)
    requires s.phase == Loading && r != s.room
    ensures var after := Run(Step(s, SwitchRoom(r)).state, events);
            && Step(after.state, FetchResolved(s.epoch, result)) == Transition(after.state, [])
            && forall k :: 0 <= k < |after.effects| && after.effects[k].Subscribe? ==> after.effects[k].channel.epoch != s.epoch
  {
    var switched := Step(s, SwitchRoom(r)).state;
    EpochNeverDecreases(switched, events);
    SubscriptionsAreNotOlder(switched, events);
  }

  /** A failed history load after a room switch leaves the previous room's
      messages on screen under the new room, and the new room's channel is
      still opened. */
  lemma FailedFetchKeepsPreviousMessages(s: State, r: string, message: string)
    requires s.phase == Live && r != s.room
    ensures var t1 := Step(s, SwitchRoom(r));
            var t2 := Step(t1.state, FetchResolved(t1.state.epoch, FetchFailed(message)));
            && t2.state.room == r && t2.state.messages == s.messages
            && t2.effects == [Notify(Notice(ErrorTitle, message)), SubscribeTo(r, s.epoch + 1)]
  {
  }

  /** A successful send adds nothing locally; the row shows once, when the
      room's channel delivers it. */
  lemma SentMessageShownOnceFromChannel(s: State, user: Option<User>, m: Message)
    requires s.phase == Live && |s.outbox| == 0 && SignedInId(user).Some? && !Text.AllSpace(s.input)
    ensures var t1 := Step(s, Send(user));
            var t2 := Step(t1.state, SendResolved(0, None));
            var t3 := Step(t2.state, LiveInsert(Channel(s.room, s.epoch), m));
            && t2.state.messages == s.messages && !t2.state.sending && t2.state.input == ""
            && t3.state.messages == s.messages + [m]
  {
  }

  predicate StrictlyDescending(ms: seq<Message>) {
    forall i, j :: 0 <= i < j < |ms| ==> ms[i].createdAt > ms[j].createdAt
  }

  function Reverse(ms: seq<Message>): seq<Message>
    decreases |ms|
  {
    if ms == [] then [] else Reverse(ms[1..]) + [ms[0]]
  }

  /** Sorting a non-empty sequence inserts its first row into the sorted
      rest. */
  lemma SortCons(x: Message, rest: seq<Message>)
    ensures SortByTime([x] + rest) == InsertByTime(x, SortByTime(rest))
  {
    assert ([x] + rest)[1..] == rest;
  }

  /** A row no newer than the first of a sorted sequence goes in front. */
  lemma InsertInFront(m: Message, sorted: seq<Message>)
    requires SortedByTime(sorted) && (sorted == [] || m.createdAt <= sorted[0].createdAt)
    ensures InsertByTime(m, sorted) == [m] + sorted
  {
  }

  /** A message newer than all the others goes last. */
  lemma {:induction false} NewestGoesLast(m: Message, sorted: seq<Message>)
    requires SortedByTime(sorted)
    requires forall k :: 0 <= k < |sorted| ==> sorted[k].createdAt < m.createdAt
    ensures InsertByTime(m, sorted) == sorted + [m]
    decreases |sorted|
  {
    if sorted != [] {
      NewestGoesLast(m, sorted[1..]);
      assert sorted == [sorted[0]] + sorted[1..];
    }
  }

  /** A rearrangement of rows all older than `bound` holds only rows older
      than `bound`. */
  lemma OlderKept(bound: int, xs: seq<Message>, ys: seq<Message>)
    requires multiset(xs) == multiset(ys)
    requires forall k :: 0 <= k < |xs| ==> xs[k].createdAt < bound
    ensures forall k :: 0 <= k < |ys| ==> ys[k].createdAt < bound
  {
    forall k | 0 <= k < |ys|
      ensures ys[k].createdAt < bound
    {
      assert ys[k] in multiset(xs);
      var i :| 0 <= i < |xs| && xs[i] == ys[k];
    }
  }

  /** The query asks for the newest rows first; when their times are all
      different, sorting them simply reverses them. */
  lemma {:induction false} DescendingHistorySortsToReverse(rows: seq<Message>)
    requires StrictlyDescending(rows)
    ensures SortByTime(rows) == Reverse(rows)
    decreases |rows|
  {
    if rows != [] {
      var tail := rows[1..];
      DescendingHistorySortsToReverse(tail);
      forall k | 0 <= k < |tail|
        ensures tail[k].createdAt < rows[0].createdAt
      {
        assert tail[k] == rows[k + 1];
      }
      OlderKept(rows[0].createdAt, tail, SortByTime(tail));
      NewestGoesLast(rows[0], SortByTime(tail));
    }
  }

  lemma SortOne(x: Message)
    ensures SortByTime([x]) == [x]
  {
    SortCons(x, []);
    InsertInFront(x, []);
    assert [x] + [] == [x];
  }

  /** Two rows, the newer first, come out swapped. */
  lemma SortNewerFirstPair(b: Message, c: Message)
    requires c.createdAt < b.createdAt
    ensures SortByTime([b, c]) == [c, b]
  {
    SortOne(c);
    SortCons(b, [c]);
    NewestGoesLast(b, [c]);
    assert [b] + [c] == [b, c];
  }

  /** With equal times the sort keeps the query's order, which a plain
      reversal would not. */
  lemma TiesKeepQueryOrder(a: Message, b: Message)
    requires a.createdAt == b.createdAt && a != b
    ensures SortByTime([a, b]) == [a, b] && Reverse([a, b]) == [b, a]
  {
    SortOne(b);
    SortCons(a, [b]);
    InsertInFront(a, [b]);
    assert [a] + [b] == [a, b];
    assert [a, b][1..] == [b] && [b][1..] == [];
    assert Reverse([b]) == [b];
  }

  /** Three rows created at 10:00, 10:05 and 10:02, in the order the store
      returns them, are shown 10:00, 10:02, 10:05. */
  lemma SortExample(a: Message, b: Message, c: Message)
    requires a.createdAt == 600 && b.createdAt == 605 && c.createdAt == 602
    ensures SortByTime([a, b, c]) == [a, c, b]
  {
    SortNewerFirstPair(b, c);
    SortCons(a, [b, c]);
    InsertInFront(a, [c, b]);
    assert [a] + [b, c] == [a, b, c];
  }

  /** The rows of `ms` created at time `c`, in their order in `ms`. */
  function AtTime(ms: seq<Message>, c: int): (r: seq<Message>)
    ensures forall k :: 0 <= k < |r| ==> r[k].createdAt == c
    decreases |ms|
  {
    if ms == [] then [] else (if ms[0].createdAt == c then [ms[0]] else []) + AtTime(ms[1..], c)
  }

  lemma AtTimeCons(x: Message, rest: seq<Message>, c: int)
    ensures AtTime([x] + rest, c) == (if x.createdAt == c then [x] else []) + AtTime(rest, c)
  {
    assert ([x] + rest)[1..] == rest;
  }

  /** Inserting a row puts it in front of the rows of its own time. */
  lemma {:induction false} InsertByTimeAtTime(m: Message, sorted: seq<Message>, c: int)
    requires SortedByTime(sorted)
    ensures AtTime(InsertByTime(m, sorted), c) == (if m.createdAt == c then [m] else []) + AtTime(sorted, c)
    decreases |sorted|
  {
    if sorted == [] || m.createdAt <= sorted[0].createdAt {
      AtTimeCons(m, sorted, c);
    } else {
      var head, tail := sorted[0], sorted[1..];
      assert sorted == [head] + tail;
      InsertByTimeAtTime(m, tail, c);
      AtTimeCons(head, InsertByTime(m, tail), c);
      AtTimeCons(head, tail, c);
    }
  }

  /** The sort is stable: the rows of any one time keep the order the
      query returned them in. */
  lemma {:induction false} SortIsStable(rows: seq<Message>, c: int)
    ensures AtTime(SortByTime(rows), c) == AtTime(rows, c)
    decreases |rows|
  {
    if rows != [] {
      SortIsStable(rows[1..], c);
      InsertByTimeAtTime(rows[0], SortByTime(rows[1..]), c);
      AtTimeCons(rows[0], rows[1..], c);
      assert rows == [rows[0]] + rows[1..];
    }
  }

  /** What the page lets the user do: the input and the send button are
      disabled unless a user is known and no insert is pending. */
  predicate Enabled(s: State, e: Event) {
    (e.Type? || e.Send?) ==> ComposerEnabled(s)
  }

  /** Every event of `events`, from `s` on, is one the page lets happen. */
  predicate Usable(s: State, events: seq<Event>)
    decreases |events|
  {
    events == [] || (Enabled(s, events[0]) && Usable(Step(s, events[0]).state, events[1..]))
  }

  /** On a mounted page, `sending` is set exactly while an insert is in
      flight; there is then only one, and the input is empty. */
  predicate InputClearedWhileSending(s: State) {
    s.phase != Closed ==>
      && (s.sending <==> |s.outbox| > 0)
      && (|s.outbox| > 0 ==> |s.outbox| == 1 && s.input == "")
  }

  lemma StepClearsInput(s: State, e: Event)
    requires InputClearedWhileSending(s) && Enabled(s, e)
    ensures InputClearedWhileSending(Step(s, e).state)
  {
  }

  lemma {:induction false} RunClearsInput(s: State, events: seq<Event>)
    requires InputClearedWhileSending(s) && Usable(s, events)
    ensures InputClearedWhileSending(Run(s, events).state)
    decreases |events|
  {
    if events != [] {
      StepClearsInput(s, events[0]);
      RunClearsInput(Step(s, events[0]).state, events[1..]);
    }
  }

  /** From the first render, along anything the page lets the user do,
      the input stays empty while a message is being sent. */
  lemma SendingKeepsInputEmpty(events: seq<Event>)
    requires Usable(Init().state, events)
    ensures InputClearedWhileSending(Boot(events).state)
  {
    RunClearsInput(Init().state, events);
  }

  /** Without the guard the model allows more than the page: typing during
      a pending insert refills the input. */
  lemma UnguardedTypingRefillsInput(s: State, user: User, text: string, typed: string)
    requires s.phase == Live && s.me.Some? && !s.sending && s.input == text && !Text.AllSpace(text)
    requires user.id != "" && typed != ""
    ensures var t := Step(Step(s, Send(Some(user))).state, Type(typed)).state;
            t.sending && t.input == typed && !Usable(s, [Send(Some(user)), Type(typed)])
  {
  }

  /** An event that could tell the page who is signed in. */
  predicate Identifies(e: Event) {
    e.SessionResolved? && SignedInId(e.user).Some?
  }

  lemma StepKeepsAnonymous(s: State, e: Event)
    requires s.me.None? && !Identifies(e)
    ensures Step(s, e).state.me.None?
  {
  }

  lemma {:induction false} RunKeepsAnonymous(s: State, events: seq<Event>)
    requires s.me.None?
    requires forall k :: 0 <= k < |events| ==> !Identifies(events[k])
    ensures Run(s, events).state.me.None?
    decreases |events|
  {
    if events != [] {
      StepKeepsAnonymous(s, events[0]);
      RunKeepsAnonymous(Step(s, events[0]).state, events[1..]);
    }
  }

  /** Until the session lookup answers with a user id, no message is shown
      as one's own, whatever else happens. */
  lemma NothingMineUntilSignedIn(events: seq<Event>, m: Message)
    requires forall k :: 0 <= k < |events| ==> !Identifies(events[k])
    ensures !Mine(m, Boot(events).state.me)
  {
    RunKeepsAnonymous(Init().state, events);
  }

  /** Once the session names a user, the row that user sends comes back
      through the channel shown as one's own. */
  lemma OwnSentRowIsMine(s: State, user: User, m: Message)
    requires s.phase != Closed && SignedInId(Some(user)).Some? && !Text.AllSpace(s.input)
    ensures var signedIn := Step(s, SessionResolved(Some(user))).state;
            var sent := Step(signedIn, Send(Some(user)));
            && |sent.effects| == 2 && sent.effects[1].InsertMessage?
            && (m.userId == sent.effects[1].row.userId ==> Mine(m, sent.state.me))
  {
  }
}

=== FILE: common.dfy ===
/** Values shared by every page: optional values, results of external calls,
    the notifications a page raises, the signed-in user, and the JavaScript
    truthiness tests the pages apply to strings. */
module Common {

  /** `T | null` (or `undefined`) in the source. */
  datatype Option<+T> = None | Some(value: T) {

    /** `x ?? d` */
    function GetOr(default: T): T {
      match this
      case Some(v) => v
      case None => default
    }
  }

  /** The outcome of an external call that either yields a value or fails
      with an error carrying a message. */
  datatype Result<+T> = Ok(value: T) | Err(message: string)

  /** The argument of `toast({ title, description })`. */
  datatype Notice = Notice(title: string, description: string)

  /** The title every page gives the notice of a failed backend call. */
  const ErrorTitle := "Erreur"

  /** The user record the authentication service returns from `getUser`:
      its id, `user_metadata.name` and `email`. */
  datatype User = User(id: string, name: Option<string>, email: Option<string>)

  /** JavaScript truthiness of an optional string: `undefined`, `null` and
      `""` are all falsy. */
  predicate Truthy(s: Option<string>) {
    s.Some? && s.value != ""
  }

  /** `userData.user?.id`, followed by the pages' `if (!user_id)` test:
      the id is usable only when a user is present and the id is not empty. */
  function SignedInId(user: Option<User>): (r: Option<string>)
    ensures r.Some? <==> user.Some? && user.value.id != ""
    ensures r.Some? ==> r.value == user.value.id
  {
    if user.Some? && user.value.id != "" then Some(user.value.id) else None
  }

  /** `s || null` on a form field that is always a string: the empty field
      is stored as null. Reading a null back as `""` gives the field again,
      and an empty string is never stored. */
  function NullIfEmpty(s: string): (r: Option<string>)
    ensures r.GetOr("") == s
    ensures r != Some("")
  {
    if s == "" then None else Some(s)
  }
}

=== FILE: jobs.dfy ===
/** The jobs board (src/app/jobs/page.tsx): `addJob` and `load`. */
module Jobs {
  import opened Common
  import Upload
  import opened Pipeline

  /** A row of the `jobs` table as the list shows it. */
  datatype Job = Job(id: string, userId: string, title: string, company: Option<string>, city: Option<string>,
                     visa: Option<string>, pay: Option<string>, imageUrl: Option<string>,
                     description: Option<string>, createdAt: int)

  /** The form's state: six text fields, the dropped file and its preview
      URL. */
  datatype JobForm = JobForm(title: string, company: string, city: string, visa: string, pay: string,
                             description: string, file: Option<Upload.File>, preview: Option<string>)

  /** The row `addJob` inserts. */
  datatype NewJob = NewJob(userId: string, title: string, company: Option<string>, city: Option<string>,
                           visa: Option<string>, pay: Option<string>, description: Option<string>,
                           imageUrl: Option<string>)

  const Table := "jobs"
  const Posted := Notice("Succès", "Offre ajoutée.")
  const EmptyForm := JobForm("", "", "", "", "", "", None, None)

  /** The inserted row: the title as typed, every other text field null
      when empty. */
  function NewJobRow(form: JobForm, userId: string, imageUrl: Option<string>): (r: NewJob)
    ensures r.userId == userId && r.title == form.title && r.imageUrl == imageUrl
    ensures r.company.GetOr("") == form.company && r.company != Some("")
    ensures r.city.GetOr("") == form.city && r.city != Some("")
    ensures r.visa.GetOr("") == form.visa && r.visa != Some("")
    ensures r.pay.GetOr("") == form.pay && r.pay != Some("")
    ensures r.description.GetOr("") == form.description && r.description != Some("")
  {
    NewJob(userId, form.title, NullIfEmpty(form.company), NullIfEmpty(form.city), NullIfEmpty(form.visa),
           NullIfEmpty(form.pay), NullIfEmpty(form.description), imageUrl)
  }

  /** `addJob` with the current form, the `getUser` answer, the clock
      reading `now` used for the upload path, the storage service, and the
      insert's error, if any. */
  function AddJob(form: JobForm, user: Option<User>, now: nat, storage: Upload.StorageService, insertError: Option<string>): (r: Outcome<JobForm, NewJob>)
    // without a user id: a notice, and neither upload nor insert
    ensures SignedInId(user).None? ==> r == Outcome([GetUser], [SignInRequired], form)
    // without a file nothing is uploaded
    ensures form.file.None? ==> NoStorageCall(r.effects)
    // the insert happens exactly when the user is known and the upload, if any, worked
    ensures InsertedRow(r.effects).Some? <==> Reaches(form.file, user, storage)
    ensures !Reaches(form.file, user, storage) ==> r.form == form && NoInsert(r.effects) && NoReload(r.effects) && |r.notices| == 1
    ensures SignedInId(user).Some? && form.file.Some? && storage.uploadError.Some? ==>
              r.notices == [UploadFailed(storage.uploadError.value)]
    // what is inserted
    ensures InsertedRow(r.effects).Some? ==>
              var row := InsertedRow(r.effects).value;
              && Insert(Table, row) in r.effects
              && row.userId == SignedInId(user).value
              && row.title == form.title
              && row.company == NullIfEmpty(form.company) && row.city == NullIfEmpty(form.city)
              && row.visa == NullIfEmpty(form.visa) && row.pay == NullIfEmpty(form.pay)
              && row.description == NullIfEmpty(form.description)
              && (row.imageUrl.None? <==> form.file.None?)
              && (form.file.Some? ==> row.imageUrl == Some(storage.publicUrl(Upload.ObjectPath(Upload.Jobs, row.userId, now, form.file.value.name))))
    // an insert error keeps the form and does not reload
    ensures Reaches(form.file, user, storage) && insertError.Some? ==>
              r.form == form && NoReload(r.effects) && r.notices == [Notice(ErrorTitle, insertError.value)]
    // success clears the form, file and preview, and reloads
    ensures Reaches(form.file, user, storage) && insertError.None? ==>
              r.form == EmptyForm && r.notices == [Posted] && r.effects[|r.effects| - 1] == Reload(Table)
  {
    match Prepare(user, form.file, Upload.Jobs, now, storage)
    case Halt(calls, notice) => Halted(form, calls, notice)
    case Proceed(uid, url, calls) =>
      Finish(form, EmptyForm, form.preview, Table, calls, NewJobRow(form, uid, url), insertError, Posted)
  }

  /** An empty optional field is stored as null and a filled one as typed,
      so reading the stored row back (null as "") gives the form's text. */
  lemma StoredFieldsReadBack(form: JobForm, user: Option<User>, now: nat, storage: Upload.StorageService, insertError: Option<string>)
    requires Reaches(form.file, user, storage)
    ensures var row := InsertedRow(AddJob(form, user, now, storage, insertError).effects).value;
            && row.company.GetOr("") == form.company && row.city.GetOr("") == form.city
            && row.visa.GetOr("") == form.visa && row.pay.GetOr("") == form.pay
            && row.description.GetOr("") == form.description
            && row.company != Some("") && row.city != Some("") && row.visa != Some("")
            && row.pay != Some("") && row.description != Some("")
  {
  }

  /** With a user id and a file, `addJob` issues `getUser`, then exactly the
      upload's calls, and no storage call after them. */
  lemma AddJobUploadsFirst(form: JobForm, user: Option<User>, now: nat, storage: Upload.StorageService, insertError: Option<string>)
    requires SignedInId(user).Some? && form.file.Some?
    ensures var t := AddJob(form, user, now, storage, insertError);
            var calls := Upload.UploadImage(form.file.value, SignedInId(user).value, Upload.Jobs, now, storage).calls;
            UploadsFirst(t.effects, calls)
  {
    var t := AddJob(form, user, now, storage, insertError);
    var g := Prepare(user, form.file, Upload.Jobs, now, storage);
    assert g.calls == Upload.UploadImage(form.file.value, SignedInId(user).value, Upload.Jobs, now, storage).calls;
    match g
    case Halt(calls, notice) =>
      assert t == Halted(form, calls, notice);
    case Proceed(uid, url, calls) =>
      assert t == Finish(form, EmptyForm, form.preview, Table, calls, NewJobRow(form, uid, url), insertError, Posted);
  }

  /** `addJob` inserts and reloads at most once, and on success releases the
      preview URL. */
  lemma AddJobCalls(form: JobForm, user: Option<User>, now: nat, storage: Upload.StorageService, insertError: Option<string>)
    ensures var t := AddJob(form, user, now, storage, insertError);
            && SingleInsert(t.effects) && SingleReload(t.effects)
            && (Reaches(form.file, user, storage) && insertError.None? && Truthy(form.preview) ==>
                  RevokeObjectUrl(form.preview.value) in t.effects)
  {
    var t := AddJob(form, user, now, storage, insertError);
    match Prepare(user, form.file, Upload.Jobs, now, storage)
    case Halt(calls, notice) =>
      assert t == Halted(form, calls, notice);
    case Proceed(uid, url, calls) =>
      assert t == Finish(form, EmptyForm, form.preview, Table, calls, NewJobRow(form, uid, url), insertError, Posted);
      if insertError.None? && Truthy(form.preview) {
        assert t.effects[|calls| + 2..][0] == RevokeObjectUrl(form.preview.value);
      }
  }

  /** `load()` over the jobs list: `setLoading(true)`, then the query's answer. */
  function LoadJobs(s: ListState<Job>, response: Response<Job>): (r: (ListState<Job>, seq<Notice>))
    ensures !r.0.loading && r.0.items == response.data.GetOr([])
    ensures |r.1| == (if response.error.Some? then 1 else 0)
  {
    FinishLoad(StartLoad(s), response)
  }
}

=== FILE: logement.dfy ===
/** The housing listings (src/app/logement/page.tsx): `onSubmit`, the price
    field, and `load`. */
module Logement {
  import opened Common
  import Upload
  import opened Pipeline

  /** A row of the `listings` table as the list shows it. */
  datatype Listing = Listing(id: string, userId: string, title: string, city: Option<string>,
                             priceWeek: Option<int>, contact: Option<string>, description: Option<string>,
                             imageUrl: Option<string>, createdAt: int)

  /** The price field's state, `number | ''`. */
  datatype PriceField = Blank | Amount(value: int)

  /** The form's state. */
  datatype ListingForm = ListingForm(title: string, city: string, price: PriceField, contact: string,
                                     description: string, file: Option<Upload.File>, preview: Option<string>)

  /** The row `onSubmit` inserts. */
  datatype NewListing = NewListing(userId: string, title: string, city: Option<string>, priceWeek: Option<int>,
                                   contact: Option<string>, description: Option<string>, imageUrl: Option<string>)

  const Table := "listings"
  const Published := Notice("Succès", "Annonce publiée.")
  const EmptyForm := ListingForm("", "", Blank, "", "", None, None)

  /** The price input's `onChange`: an empty input is kept as `''`, any
      other text as the number the browser reads from it, given here as
      `number`. */
  function PriceInput(raw: string, number: int): (p: PriceField)
    ensures p == Blank <==> raw == ""
    ensures p.Amount? ==> p.value == number
  {
    if raw == "" then Blank else Amount(number)
  }

  /** `price === '' ? null : Number(price)`: null exactly for the blank
      field, the number itself otherwise (zero included). */
  function PriceWeek(price: PriceField): (r: Option<int>)
    ensures r.None? <==> price == Blank
    ensures price.Amount? ==> r == Some(price.value)
  {
    match price
    case Blank => None
    case Amount(n) => Some(n)
  }

  /** An empty price input is stored as null, not as the 0 that
      `Number('')` would give, and a typed 0 is stored as 0. */
  lemma EmptyPriceIsNull(raw: string, number: int)
    ensures PriceWeek(PriceInput(raw, number)) == (if raw == "" then None else Some(number))
  {
  }

  /** The inserted row. */
  function NewListingRow(form: ListingForm, userId: string, imageUrl: Option<string>): (r: NewListing)
    ensures r.userId == userId && r.title == form.title && r.imageUrl == imageUrl
    ensures r.city.GetOr("") == form.city && r.city != Some("")
    ensures r.contact.GetOr("") == form.contact && r.contact != Some("")
    ensures r.description.GetOr("") == form.description && r.description != Some("")
    ensures r.priceWeek.None? <==> form.price == Blank
    ensures form.price.Amount? ==> r.priceWeek == Some(form.price.value)
  {
    NewListing(userId, form.title, NullIfEmpty(form.city), PriceWeek(form.price), NullIfEmpty(form.contact),
               NullIfEmpty(form.description), imageUrl)
  }

  /** `onSubmit` with the current form, the `getUser` answer, the clock
      reading `now`, the storage service and the insert's error, if any. */
  function Submit(form: ListingForm, user: Option<User>, now: nat, storage: Upload.StorageService, insertError: Option<string>): (r: Outcome<ListingForm, NewListing>)
    // without a user id: a notice, and neither upload nor insert
    ensures SignedInId(user).None? ==> r == Outcome([GetUser], [SignInRequired], form)
    ensures form.file.None? ==> NoStorageCall(r.effects)
    ensures InsertedRow(r.effects).Some? <==> Reaches(form.file, user, storage)
    ensures !Reaches(form.file, user, storage) ==> r.form == form && NoInsert(r.effects) && NoReload(r.effects) && |r.notices| == 1
    ensures SignedInId(user).Some? && form.file.Some? && storage.uploadError.Some? ==>
              r.notices == [UploadFailed(storage.uploadError.value)]
    ensures InsertedRow(r.effects).Some? ==>
              var row := InsertedRow(r.effects).value;
              && Insert(Table, row) in r.effects
              && row.userId == SignedInId(user).value
              && row.title == form.title
              && row.city == NullIfEmpty(form.city) && row.contact == NullIfEmpty(form.contact)
              && row.description == NullIfEmpty(form.description)
              && (row.priceWeek.None? <==> form.price == Blank)
              && (form.price.Amount? ==> row.priceWeek == Some(form.price.value))
              && (row.imageUrl.None? <==> form.file.None?)
              && (form.file.Some? ==> row.imageUrl == Some(storage.publicUrl(Upload.ObjectPath(Upload.Listings, row.userId, now, form.file.value.name))))
    ensures Reaches(form.file, user, storage) && insertError.Some? ==>
              r.form == form && NoReload(r.effects) && r.notices == [Notice(ErrorTitle, insertError.value)]
    ensures Reaches(form.file, user, storage) && insertError.None? ==>
              r.form == EmptyForm && r.notices == [Published] && r.effects[|r.effects| - 1] == Reload(Table)
  {
    match Prepare(user, form.file, Upload.Listings, now, storage)
    case Halt(calls, notice) => Halted(form, calls, notice)
    case Proceed(uid, url, calls) =>
      Finish(form, EmptyForm, form.preview, Table, calls, NewListingRow(form, uid, url), insertError, Published)
  }

  /** With a user id and a file, `onSubmit` issues `getUser`, then exactly the
      upload's calls, and no storage call after them. */
  lemma SubmitUploadsFirst(form: ListingForm, user: Option<User>, now: nat, storage: Upload.StorageService, insertError: Option<string>)
    requires SignedInId(user).Some? && form.file.Some?
    ensures var t := Submit(form, user, now, storage, insertError);
            var calls := Upload.UploadImage(form.file.value, SignedInId(user).value, Upload.Listings, now, storage).calls;
            UploadsFirst(t.effects, calls)
  {
    var t := Submit(form, user, now, storage, insertError);
    var g := Prepare(user, form.file, Upload.Listings, now, storage);
    assert g.calls == Upload.UploadImage(form.file.value, SignedInId(user).value, Upload.Listings, now, storage).calls;
    match g
    case Halt(calls, notice) =>
      assert t == Halted(form, calls, notice);
    case Proceed(uid, url, calls) =>
      assert t == Finish(form, EmptyForm, form.preview, Table, calls, NewListingRow(form, uid, url), insertError, Published);
  }

  /** `onSubmit` inserts and reloads at most once, and on success releases the
      preview URL. */
  lemma SubmitCalls(form: ListingForm, user: Option<User>, now: nat, storage: Upload.StorageService, insertError: Option<string>)
    ensures var t := Submit(form, user, now, storage, insertError);
            && SingleInsert(t.effects) && SingleReload(t.effects)
            && (Reaches(form.file, user, storage) && insertError.None? && Truthy(form.preview) ==>
                  RevokeObjectUrl(form.preview.value) in t.effects)
  {
    var t := Submit(form, user, now, storage, insertError);
    match Prepare(user, form.file, Upload.Listings, now, storage)
    case Halt(calls, notice) =>
      assert t == Halted(form, calls, notice);
    case Proceed(uid, url, calls) =>
      assert t == Finish(form, EmptyForm, form.preview, Table, calls, NewListingRow(form, uid, url), insertError, Published);
      if insertError.None? && Truthy(form.preview) {
        assert t.effects[|calls| + 2..][0] == RevokeObjectUrl(form.preview.value);
      }
  }

  /** `load()` over the listings: `setLoading(true)`, then the query's answer. */
  function LoadListings(s: ListState<Listing>, response: Response<Listing>): (r: (ListState<Listing>, seq<Notice>))
    ensures !r.0.loading && r.0.items == response.data.GetOr([])
    ensures |r.1| == (if response.error.Some? then 1 else 0)
  {
    FinishLoad(StartLoad(s), response)
  }
}

=== FILE: pipeline.dfy ===
/** The parts the jobs page and the housing page share: the steps of a form
    submission (authentication check, optional image upload, insert, form
    reset and reload) and the list load. Every external call is recorded as
    an effect; the answers of the services are parameters. */
module Pipeline {
  import opened Common
  import Upload

  /** A call a page issues, in the order it issues them. */
  datatype Effect<Row> =
    | GetUser
    | Storage(call: Upload.StorageCall)
    | Insert(table: string, row: Row)
    | RevokeObjectUrl(url: string)
    | Reload(table: string)

  /** What one submission leaves behind: the calls issued, the notices
      raised, and the form state afterwards. */
  datatype Outcome<Form, Row> = Outcome(effects: seq<Effect<Row>>, notices: seq<Notice>, form: Form)

  /** How far a submission gets before its insert: stopped with a notice
      (after the given storage calls), or cleared to insert as `userId`
      with the uploaded image's URL, if a file was given. */
  datatype Gate =
    | Halt(calls: seq<Upload.StorageCall>, notice: Notice)
    | Proceed(userId: string, imageUrl: Option<string>, calls: seq<Upload.StorageCall>)

  const SignInRequired := Notice(ErrorTitle, "Vous devez être connecté.")
  const UploadFailedTitle := "Erreur upload"
  const UploadFailedFallback := "Upload impossible"

  /** `err.message || 'Upload impossible'` under the upload error title. */
  function UploadFailed(message: string): (n: Notice)
    ensures n.title == UploadFailedTitle && n.description != ""
    ensures message != "" ==> n.description == message
    ensures message == "" ==> n.description == UploadFailedFallback
  {
    Notice(UploadFailedTitle, if message != "" then message else UploadFailedFallback)
  }

  /** The row of the first insert among `effects`, if any. */
  function InsertedRow<Row>(effects: seq<Effect<Row>>): Option<Row>
    decreases |effects|
  {
    if effects == [] then None
    else if effects[0].Insert? then Some(effects[0].row)
    else InsertedRow(effects[1..])
  }

  predicate NoInsert<Row>(effects: seq<Effect<Row>>) {
    forall k :: 0 <= k < |effects| ==> !effects[k].Insert?
  }

  predicate NoStorageCall<Row>(effects: seq<Effect<Row>>) {
    forall k :: 0 <= k < |effects| ==> !effects[k].Storage?
  }

  predicate NoReload<Row>(effects: seq<Effect<Row>>) {
    forall k :: 0 <= k < |effects| ==> !effects[k].Reload?
  }

  /** At most one insert among `effects`. */
  predicate SingleInsert<Row>(effects: seq<Effect<Row>>) {
    forall i, j :: 0 <= i < j < |effects| && effects[i].Insert? ==> !effects[j].Insert?
  }

  /** At most one reload among `effects`. */
  predicate SingleReload<Row>(effects: seq<Effect<Row>>) {
    forall i, j :: 0 <= i < j < |effects| && effects[i].Reload? ==> !effects[j].Reload?
  }

  /** No storage call from position `n` on. */
  predicate NoStorageFrom<Row>(effects: seq<Effect<Row>>, n: nat) {
    forall k :: n <= k < |effects| ==> !effects[k].Storage?
  }

  /** The effects open with `getUser` and then exactly the upload's calls,
      and no storage call comes after them. */
  ghost predicate UploadsFirst<Row>(effects: seq<Effect<Row>>, calls: seq<Upload.StorageCall>) {
    && |effects| >= |calls| + 1
    && effects[..|calls| + 1] == [GetUser] + Lift(calls)
    && NoStorageFrom(effects, |calls| + 1)
  }

  /** Whether a submission reaches its insert: a signed-in user, and either
      no file or an upload that succeeds. */
  predicate Reaches(file: Option<Upload.File>, user: Option<User>, storage: Upload.StorageService) {
    SignedInId(user).Some? && (file.None? || storage.uploadError.None?)
  }

  /** Effects without an insert do not change which row is inserted first. */
  lemma {:induction false} InsertedRowSkips<Row>(a: seq<Effect<Row>>, b: seq<Effect<Row>>)
    requires NoInsert(a)
    ensures InsertedRow(a + b) == InsertedRow(b)
    decreases |a|
  {
    if a == [] {
      assert a + b == b;
    } else {
      assert (a + b)[0] == a[0];
      assert (a + b)[1..] == a[1..] + b;
      InsertedRowSkips(a[1..], b);
    }
  }

  /** The storage calls of an upload, as effects of the page. */
  function Lift<Row>(calls: seq<Upload.StorageCall>): (r: seq<Effect<Row>>)
    ensures |r| == |calls|
    ensures forall k :: 0 <= k < |r| ==> r[k] == Storage(calls[k])
  {
    seq(|calls|, k requires 0 <= k < |calls| => Storage(calls[k]))
  }

  /** `if (preview) URL.revokeObjectURL(preview)` */
  function RevokePreview<Row>(preview: Option<string>): (r: seq<Effect<Row>>)
    ensures |r| <= 1
    ensures r != [] <==> Truthy(preview)
    ensures r != [] ==> r[0] == RevokeObjectUrl(preview.value)
  {
    if Truthy(preview) then [RevokeObjectUrl(preview.value)] else []
  }

  /** The submission up to its insert: a user without an id stops it with
      a notice before any upload; with no file nothing is uploaded and the
      image URL is null; a failed upload stops it with the error's message,
      or "Upload impossible" when that is empty; a successful one gives the
      public URL of the stored path. */
  function Prepare(user: Option<User>, file: Option<Upload.File>, folder: Upload.Folder, now: nat, storage: Upload.StorageService): (g: Gate)
    ensures SignedInId(user).None? ==> g == Halt([], SignInRequired)
    ensures SignedInId(user).Some? && file.None? ==> g == Proceed(SignedInId(user).value, None, [])
    ensures SignedInId(user).Some? && file.Some? ==> (g.Proceed? <==> storage.uploadError.None?)
    ensures SignedInId(user).Some? && file.Some? ==>
              g.calls == Upload.UploadImage(file.value, SignedInId(user).value, folder, now, storage).calls
    ensures SignedInId(user).Some? && g.Halt? ==>
              g.notice.title == UploadFailedTitle && g.notice.description != ""
    ensures SignedInId(user).Some? && file.Some? && storage.uploadError.Some? ==>
              g.notice == UploadFailed(storage.uploadError.value)
    ensures g.Proceed? ==> g.userId == SignedInId(user).value && (g.imageUrl.Some? <==> file.Some?)
    ensures g.Proceed? && file.Some? ==>
              g.imageUrl.value == storage.publicUrl(Upload.ObjectPath(folder, g.userId, now, file.value.name))
  {
    match SignedInId(user)
    case None => Halt([], SignInRequired)
    case Some(uid) =>
      match file
      case None => Proceed(uid, None, [])
      case Some(f) =>
        var run := Upload.UploadImage(f, uid, folder, now, storage);
        match run.result
        case Err(msg) => Halt(run.calls, UploadFailed(msg))
        case Ok(url) => Proceed(uid, Some(url), run.calls)
  }

  /** A submission stopped before its insert: the form is untouched and
      nothing is inserted or reloaded. */
  function Halted<Form, Row>(form: Form, calls: seq<Upload.StorageCall>, notice: Notice): (r: Outcome<Form, Row>)
    ensures r.form == form && r.notices == [notice]
    ensures InsertedRow(r.effects) == None && NoInsert(r.effects) && NoReload(r.effects)
    ensures r.effects == [GetUser] + Lift(calls)
    ensures calls == [] ==> NoStorageCall(r.effects)
    ensures SingleInsert(r.effects) && SingleReload(r.effects) && UploadsFirst(r.effects, calls)
  {
    var effects := [GetUser] + Lift(calls);
    assert effects[..|calls| + 1] == effects;
    InsertedRowSkips(effects, []);
    assert effects + [] == effects;
    Outcome(effects, [notice], form)
  }

  /** Where the insert sits among the calls of a submission that reaches
      it: after `getUser` and the upload's calls, before the tail. */
  lemma AttemptLayout<Row>(calls: seq<Upload.StorageCall>, table: string, row: Row, tail: seq<Effect<Row>>)
    ensures var e := [GetUser] + Lift(calls) + [Insert(table, row)] + tail;
            && InsertedRow(e) == Some(row) && Insert(table, row) in e
            && |e| == |calls| + 2 + |tail|
            && e[..|calls| + 1] == [GetUser] + Lift(calls)
            && e[..|calls| + 2] == [GetUser] + Lift(calls) + [Insert(table, row)]
            && e[|calls| + 2..] == tail
  {
    var before: seq<Effect<Row>> := [GetUser] + Lift(calls);
    var e := before + [Insert(table, row)] + tail;
    var n := |calls| + 1;
    assert e == before + ([Insert(table, row)] + tail);
    InsertedRowSkips(before, [Insert(table, row)] + tail);
    assert e[n] == Insert(table, row);
    assert e[..n] == before;
    assert e[..n + 1] == before + [Insert(table, row)];
    assert e[n + 1..] == tail;
  }

  /** The calls of a submission that reaches its insert: the upload's
      calls come first, the insert is the only one, the tail adds at most
      one reload, and no storage call comes after the upload's. */
  lemma AttemptShape<Row>(calls: seq<Upload.StorageCall>, table: string, row: Row, tail: seq<Effect<Row>>)
    requires forall k :: 0 <= k < |tail| ==> !tail[k].Insert? && !tail[k].Storage?
    requires SingleReload(tail)
    ensures var e := [GetUser] + Lift(calls) + [Insert(table, row)] + tail;
            && SingleInsert(e) && SingleReload(e) && UploadsFirst(e, calls)
            && (calls == [] ==> NoStorageCall(e))
            && (NoReload(tail) ==> NoReload(e))
  {
    var lifted: seq<Effect<Row>> := Lift(calls);
    var e := [GetUser] + lifted + [Insert(table, row)] + tail;
    var n := |calls| + 1;
    AttemptLayout(calls, table, row, tail);
    forall k | 0 <= k < n
      ensures !e[k].Insert? && !e[k].Reload?
    {
      if k > 0 {
        assert e[k] == lifted[k - 1];
      }
    }
    assert e[n] == Insert(table, row);
    forall k | n < k < |e|
      ensures e[k] == tail[k - n - 1]
    {
    }
  }

  /** What follows a successful insert: the preview URL released, then the
      reload. */
  lemma SuccessTail<Row>(preview: Option<string>, table: string)
    ensures var tail: seq<Effect<Row>> := RevokePreview(preview) + [Reload(table)];
            && (forall k :: 0 <= k < |tail| ==> !tail[k].Insert? && !tail[k].Storage?)
            && SingleReload(tail) && tail[|tail| - 1] == Reload(table)
  {
    var tail: seq<Effect<Row>> := RevokePreview(preview) + [Reload(table)];
    assert forall k :: 0 <= k < |tail| - 1 ==> tail[k].RevokeObjectUrl?;
  }

  /** The insert and what follows it: on an error the form is kept, the
      error is raised as a notice and nothing is reloaded; on success the form is
      cleared, the preview URL released, and the list reloaded. */
  function Finish<Form, Row>(form: Form, cleared: Form, preview: Option<string>, table: string,
                             calls: seq<Upload.StorageCall>, row: Row, insertError: Option<string>, success: Notice): (r: Outcome<Form, Row>)
    ensures InsertedRow(r.effects) == Some(row) && Insert(table, row) in r.effects
    ensures |r.effects| >= |calls| + 2 && r.effects[..|calls| + 2] == [GetUser] + Lift(calls) + [Insert(table, row)]
    ensures calls == [] ==> NoStorageCall(r.effects)
    ensures SingleInsert(r.effects) && SingleReload(r.effects) && UploadsFirst(r.effects, calls)
    ensures insertError.Some? ==> |r.effects| == |calls| + 2
    ensures insertError.None? ==> r.effects[|calls| + 2..] == RevokePreview(preview) + [Reload(table)]
    ensures insertError.Some? ==> r.form == form && r.notices == [Notice(ErrorTitle, insertError.value)] && NoReload(r.effects)
    ensures insertError.None? ==> r.form == cleared && r.notices == [success] && r.effects[|r.effects| - 1] == Reload(table)
  {
    var tail: seq<Effect<Row>> := if insertError.Some? then [] else RevokePreview(preview) + [Reload(table)];
    SuccessTail<Row>(preview, table);
    AttemptLayout(calls, table, row, tail);
    AttemptShape(calls, table, row, tail);
    var effects := [GetUser] + Lift(calls) + [Insert(table, row)] + tail;
    match insertError
    case Some(msg) => Outcome(effects, [Notice(ErrorTitle, msg)], form)
    case None => Outcome(effects, [success], cleared)
  }

  /** A page's list and its loading flag. */
  datatype ListState<T> = ListState(items: seq<T>, loading: bool)

  /** The `{ data, error }` answer of a list query. */
  datatype Response<T> = Response(data: Option<seq<T>>, error: Option<string>)

  /** `setLoading(true)` before the query. */
  function StartLoad<T>(s: ListState<T>): (r: ListState<T>)
    ensures r.loading && r.items == s.items
  {
    s.(loading := true)
  }

  /** `load()` once its query answers: an error is raised as a notice, the list becomes
      the returned rows or the empty list when none came back, whether or
      not there was an error, and loading ends. */
  function FinishLoad<T>(s: ListState<T>, response: Response<T>): (r: (ListState<T>, seq<Notice>))
    ensures !r.0.loading
    ensures r.0.items == response.data.GetOr([])
    ensures response.error.None? ==> r.1 == []
    ensures response.error.Some? ==> r.1 == [Notice(ErrorTitle, response.error.value)]
  {
    var notices := if response.error.Some? then [Notice(ErrorTitle, response.error.value)] else [];
    (ListState(response.data.GetOr([]), false), notices)
  }

  /** The load replaces the list: what was shown before does not matter. */
  lemma LoadReplaces<T>(s: ListState<T>, t: ListState<T>, response: Response<T>)
    ensures FinishLoad(s, response) == FinishLoad(t, response)
  {
  }

  /** A failed query empties the list rather than keeping the old rows. */
  lemma FailedLoadEmptiesList<T>(s: ListState<T>, message: string)
    ensures FinishLoad(s, Response(None, Some(message))).0 == ListState([], false)
  {
  }
}

=== FILE: text.dfy ===
/** `String.prototype.trim` as the chat composer uses it. */
module Text {

  /** The characters `trim` removes: the ECMAScript WhiteSpace characters
      (tab, vertical tab, form feed, space, no-break space, the byte order
      mark and the space separators U+1680, U+2000 to U+200A, U+202F, U+205F
      and U+3000) and the LineTerminator characters (line feed, carriage
      return, U+2028 and U+2029). */
  const SpaceChars: set<char> := {
    '\t', '\n', '\U{000B}', '\U{000C}', '\r', ' ', '\U{00A0}', '\U{1680}',
    '\U{2000}', '\U{2001}', '\U{2002}', '\U{2003}', '\U{2004}', '\U{2005}',
    '\U{2006}', '\U{2007}', '\U{2008}', '\U{2009}', '\U{200A}',
    '\U{2028}', '\U{2029}', '\U{202F}', '\U{205F}', '\U{3000}', '\U{FEFF}'
  }

  predicate IsSpace(c: char) {
    c in SpaceChars
  }

  /** `s` is made of white space only (the empty string included). */
  predicate AllSpace(s: string)
    decreases |s|
  {
    s == [] || (IsSpace(s[0]) && AllSpace(s[1..]))
  }

  /** `AllSpace` holds exactly when every character is white space. */
  lemma {:induction false} AllSpaceEveryChar(s: string)
    ensures AllSpace(s) <==> forall k :: 0 <= k < |s| ==> IsSpace(s[k])
    decreases |s|
  {
    if s != [] {
      AllSpaceEveryChar(s[1..]);
      if forall k :: 0 <= k < |s| ==> IsSpace(s[k]) {
        assert forall k :: 0 <= k < |s| - 1 ==> IsSpace(s[1..][k]) by {
          forall k | 0 <= k < |s| - 1
            ensures IsSpace(s[1..][k])
          {
            assert s[1..][k] == s[k + 1];
          }
        }
      }
      if AllSpace(s) {
        forall k | 0 <= k < |s|
          ensures IsSpace(s[k])
        {
          if k > 0 {
            assert s[k] == s[1..][k - 1];
          }
        }
      }
    }
  }

  /** A concatenation is all white space exactly when both parts are. */
  lemma {:induction false} AllSpaceConcat(a: string, b: string)
    ensures AllSpace(a + b) <==> AllSpace(a) && AllSpace(b)
    decreases |a|
  {
    if a == [] {
      assert a + b == b;
    } else {
      assert (a + b)[0] == a[0];
      assert (a + b)[1..] == a[1..] + b;
      AllSpaceConcat(a[1..], b);
    }
  }

  /** `s.trim()`: white space is cut from both ends. Nothing is left
      exactly when `s` is all white space, and what is left neither starts
      nor ends with white space. */
  function Trim(s: string): (r: string)
    ensures |r| <= |s|
    ensures r == [] <==> AllSpace(s)
    ensures r == [] || (!IsSpace(r[0]) && !IsSpace(r[|r| - 1]))
    decreases |s|
  {
    if s == [] then s
    else if IsSpace(s[0]) then Trim(s[1..])
    else if IsSpace(s[|s| - 1]) then
      assert s[..|s| - 1][0] == s[0];
      Trim(s[..|s| - 1])
    else s
  }

  lemma AllSpaceOne(c: char)
    requires IsSpace(c)
    ensures AllSpace([c])
  {
    assert [c][1..] == [];
  }

  /** `r` sits in `s` at `i` with only white space on either side. */
  predicate SpaceAround(s: string, i: nat, r: string) {
    && i + |r| <= |s| && r == s[i..i + |r|]
    && AllSpace(s[..i]) && AllSpace(s[i + |r|..])
  }

  /** A leading space moves the slice one place on. */
  lemma SpaceAroundCons(s: string, j: nat, r: string)
    requires s != [] && IsSpace(s[0]) && SpaceAround(s[1..], j, r)
    ensures SpaceAround(s, j + 1, r)
  {
    var tail := s[1..];
    AllSpaceOne(s[0]);
    AllSpaceConcat([s[0]], tail[..j]);
    assert s[..j + 1] == [s[0]] + tail[..j];
    assert s[j + 1..j + 1 + |r|] == tail[j..j + |r|];
    assert s[j + 1 + |r|..] == tail[j + |r|..];
  }

  /** A trailing space leaves the slice where it is. */
  lemma SpaceAroundSnoc(s: string, i: nat, r: string)
    requires s != [] && IsSpace(s[|s| - 1]) && SpaceAround(s[..|s| - 1], i, r)
    ensures SpaceAround(s, i, r)
  {
    var init := s[..|s| - 1];
    assert s[..i] == init[..i];
    assert s[i..i + |r|] == init[i..i + |r|];
    AllSpaceOne(s[|s| - 1]);
    AllSpaceConcat(init[i + |r|..], [s[|s| - 1]]);
    assert s[i + |r|..] == init[i + |r|..] + [s[|s| - 1]];
  }

  /** What `Trim` keeps is the slice of `s` starting at `i`, and only
      white space is cut on either side of it. */
  lemma {:induction false} TrimIsSlice(s: string) returns (i: nat)
    ensures SpaceAround(s, i, Trim(s))
    decreases |s|
  {
    if s == [] {
      i := 0;
    } else if IsSpace(s[0]) {
      var j := TrimIsSlice(s[1..]);
      SpaceAroundCons(s, j, Trim(s[1..]));
      i := j + 1;
    } else if IsSpace(s[|s| - 1]) {
      i := TrimIsSlice(s[..|s| - 1]);
      SpaceAroundSnoc(s, i, Trim(s[..|s| - 1]));
    } else {
      i := 0;
      assert s[|s|..] == [];
    }
  }

  /** Trimming twice is trimming once. */
  lemma TrimIdempotent(s: string)
    ensures Trim(Trim(s)) == Trim(s)
  {
  }
}

=== FILE: toasts.dfy ===
/** The toast list kept by the notification provider
    (src/components/ui/use-toast.tsx): `toast` appends a message stamped with
    the current time as its id, `remove` drops every message with a given id,
    and `useToast` fails outside the provider. */
module Toasts {
  import opened Common

  /** A toast as the provider stores it; `id` is the `Date.now()` reading at
      the time it was raised. */
  datatype ToastMessage = ToastMessage(id: int, title: Option<string>, description: Option<string>)

  /** The value the provider hands to its consumers; only the list matters
      here, the two callbacks being `Toast` and `Remove` below. */
  datatype Provider = Provider(toasts: seq<ToastMessage>)

  const MissingProvider := "useToast must be used within ToastProviderInternal"

  /** `toast(t)` at time `now`: exactly one message, carrying the given title
      and description, is added at the end; the earlier ones are kept as they
      were. */
  function Toast(toasts: seq<ToastMessage>, now: int, title: Option<string>, description: Option<string>): (r: seq<ToastMessage>)
    ensures |r| == |toasts| + 1
    ensures r[..|toasts|] == toasts
    ensures r[|toasts|].id == now && r[|toasts|].title == title && r[|toasts|].description == description
  {
    toasts + [ToastMessage(now, title, description)]
  }

  /** The number of messages carrying `id`. */
  function CountId(toasts: seq<ToastMessage>, id: int): nat
  {
    if toasts == [] then 0
    else (if toasts[0].id == id then 1 else 0) + CountId(toasts[1..], id)
  }

  /** `remove(id)`: `prev.filter(t => t.id !== id)`. A message survives
      exactly when its id differs, and one survivor per message kept. */
  function Remove(toasts: seq<ToastMessage>, id: int): (r: seq<ToastMessage>)
    ensures forall t :: t in r <==> t in toasts && t.id != id
    ensures |r| == |toasts| - CountId(toasts, id)
    decreases |toasts|
  {
    if toasts == [] then []
    else if toasts[0].id == id then Remove(toasts[1..], id)
    else [toasts[0]] + Remove(toasts[1..], id)
  }

  /** Filtering works piece by piece, so the survivors keep their order. */
  lemma {:induction false} RemoveDistributes(a: seq<ToastMessage>, b: seq<ToastMessage>, id: int)
    ensures Remove(a + b, id) == Remove(a, id) + Remove(b, id)
    decreases |a|
  {
    if a == [] {
      assert a + b == b;
    } else {
      var c := a + b;
      assert c[0] == a[0] && c[1..] == a[1..] + b;
      RemoveDistributes(a[1..], b, id);
      var tail := Remove(a[1..], id) + Remove(b, id);
      if a[0].id == id {
        assert Remove(c, id) == Remove(c[1..], id);
      } else {
        assert Remove(c, id) == [a[0]] + Remove(c[1..], id);
        assert [a[0]] + tail == ([a[0]] + Remove(a[1..], id)) + Remove(b, id);
      }
    }
  }

  /** On a single message `remove` keeps it exactly when its id differs;
      with `RemoveDistributes` this pins the result down for every list. */
  lemma RemoveOne(t: ToastMessage, id: int)
    ensures Remove([t], id) == (if t.id == id then [] else [t])
  {
    assert [t][1..] == [];
  }

  /** Removing an id no message carries changes nothing. */
  lemma {:induction false} RemoveAbsent(toasts: seq<ToastMessage>, id: int)
    requires forall k :: 0 <= k < |toasts| ==> toasts[k].id != id
    ensures Remove(toasts, id) == toasts
    decreases |toasts|
  {
    if toasts != [] {
      RemoveAbsent(toasts[1..], id);
    }
  }

  /** Removing the same id twice is removing it once. */
  lemma RemoveIdempotent(toasts: seq<ToastMessage>, id: int)
    ensures Remove(Remove(toasts, id), id) == Remove(toasts, id)
  {
    var r := Remove(toasts, id);
    forall k | 0 <= k < |r|
      ensures r[k].id != id
    {
      assert r[k] in r;
    }
    RemoveAbsent(r, id);
  }

  /** Closing a toast undoes raising it, provided no earlier toast was raised
      in the same millisecond. */
  lemma RemoveUndoesToast(toasts: seq<ToastMessage>, now: int, title: Option<string>, description: Option<string>)
    requires forall k :: 0 <= k < |toasts| ==> toasts[k].id != now
    ensures Remove(Toast(toasts, now, title, description), now) == toasts
  {
    RemoveDistributes(toasts, [ToastMessage(now, title, description)], now);
    RemoveAbsent(toasts, now);
  }

  /** Two toasts raised in the same millisecond share their id, so closing
      either closes both. */
  lemma SameMillisecondToastsCloseTogether(toasts: seq<ToastMessage>, now: int, first: Notice, second: Notice)
    ensures var both := Toast(Toast(toasts, now, Some(first.title), Some(first.description)), now, Some(second.title), Some(second.description));
            Remove(both, now) == Remove(toasts, now)
  {
    var one := ToastMessage(now, Some(first.title), Some(first.description));
    var two := ToastMessage(now, Some(second.title), Some(second.description));
    assert toasts + [one] + [two] == toasts + [one, two];
    RemoveDistributes(toasts, [one, two], now);
    assert Remove([one, two], now) == [];
  }

  /** `useToast()`: the provider's value, or the error thrown when no
      provider encloses the caller. */
  function UseToast(context: Option<Provider>): (r: Result<Provider>)
    ensures context.None? <==> r.Err?
    ensures r.Err? ==> r.message == MissingProvider
    ensures r.Ok? ==> r.value == context.value
  {
    match context
    case None => Err(MissingProvider)
    case Some(p) => Ok(p)
  }

  /** The toast lists of nested providers, outermost first. */
  type Lists = seq<seq<ToastMessage>>

  /** React's context lookup: a component reads the innermost of the
      providers enclosing it, given as indices into the lists, outermost
      first. */
  function Nearest(path: seq<nat>): (r: Option<nat>)
    ensures r.None? <==> path == []
    ensures r.Some? ==> r.value in path && r.value == path[|path| - 1]
  {
    if path == [] then None else Some(path[|path| - 1])
  }

  /** The layout's provider (list 0) encloses the pages. */
  const PagePath: seq<nat> := [0]

  /** The toaster as the layout mounts it: inside the layout's provider and
      inside a second provider (list 1) of its own. */
  const ToasterPathAsWritten: seq<nat> := [0, 1]

  /** The toaster without a provider of its own, reading the layout's. */
  const ToasterPath: seq<nat> := [0]

  /** A `toast({ title, description })` call at time `now`. */
  datatype Raise = Raise(now: int, notice: Notice)

  function Raised(r: Raise): ToastMessage {
    ToastMessage(r.now, Some(r.notice.title), Some(r.notice.description))
  }

  /** The calls `raises`, in order, from a component under `path`: they all
      go to the nearest provider's list, and every other list is untouched. */
  function RaiseAll(lists: Lists, path: seq<nat>, raises: seq<Raise>): (r: Lists)
    requires Nearest(path).Some? && Nearest(path).value < |lists|
    ensures |r| == |lists|
    ensures forall i :: 0 <= i < |lists| && i != Nearest(path).value ==> r[i] == lists[i]
    ensures var i := Nearest(path).value;
            && |r[i]| == |lists[i]| + |raises|
            && r[i][..|lists[i]|] == lists[i]
            && forall k :: 0 <= k < |raises| ==> r[i][|lists[i]| + k] == Raised(raises[k])
    decreases |raises|
  {
    if raises == [] then lists
    else
      var prev := RaiseAll(lists, path, raises[..|raises| - 1]);
      var i := Nearest(path).value;
      var last := raises[|raises| - 1];
      prev[i := Toast(prev[i], last.now, Some(last.notice.title), Some(last.notice.description))]
  }

  /** The list a toaster under `path` renders. */
  function Shown(lists: Lists, path: seq<nat>): seq<ToastMessage>
    requires Nearest(path).Some? && Nearest(path).value < |lists|
  {
    lists[Nearest(path).value]
  }

  /** As mounted, the toaster reads its own provider, which nothing raises
      into: whatever the pages raise, it renders nothing, while the pages'
      list only grows, since nothing rendered can close its toasts. */
  lemma ToasterShowsNoPageNotice(raises: seq<Raise>)
    ensures var lists := RaiseAll([[], []], PagePath, raises);
            && Shown(lists, ToasterPathAsWritten) == []
            && |lists[0]| == |raises|
  {
  }

  /** A toaster reading the layout's provider renders every notice the
      pages raise, in the order they were raised. */
  lemma ToasterShowsPageNotices(raises: seq<Raise>)
    ensures var shown := Shown(RaiseAll([[]], PagePath, raises), ToasterPath);
            && |shown| == |raises|
            && forall k :: 0 <= k < |raises| ==> shown[k] == Raised(raises[k])
  {
    var empty: seq<ToastMessage> := [];
    var lists := RaiseAll([empty], PagePath, raises);
    assert Nearest(PagePath) == Nearest(ToasterPath) == Some(0);
    forall k | 0 <= k < |raises|
      ensures lists[0][k] == Raised(raises[k])
    {
      assert lists[0][|empty| + k] == Raised(raises[k]);
    }
  }
}

=== FILE: upload.dfy ===
/** `uploadImage` (src/lib/upload.ts): the extension taken from the file name,
    the object path built from folder, user, time and extension, and the two
    storage calls. The storage service is a parameter: whether its upload
    fails, and the public URL it gives for a path. */
module Upload {
  import opened Common

  /** The two folders the pages upload into. */
  datatype Folder = Jobs | Listings {
    function Name(): string {
      match this
      case Jobs => "jobs"
      case Listings => "listings"
    }
  }

  /** The part of a browser `File` the upload reads: its name and MIME type. */
  datatype File = File(name: string, mimeType: string)

  /** A call into the storage service. */
  datatype StorageCall =
    | PutObject(bucket: string, path: string, contentType: string, upsert: bool)
    | GetPublicUrl(bucket: string, path: string)

  /** The storage service's answers: the error of the upload, if any, and
      the public URL of a stored path. */
  datatype StorageService = StorageService(uploadError: Option<string>, publicUrl: string -> string)

  /** The calls `uploadImage` issued and what it returned or threw. */
  datatype UploadRun = UploadRun(calls: seq<StorageCall>, result: Result<string>)

  const Bucket := "public"
  const FallbackExtension := "jpg"

  /** `parts.join(sep)` */
  function Join(parts: seq<string>, sep: char): string
    decreases |parts|
  {
    if parts == [] then ""
    else if |parts| == 1 then parts[0]
    else parts[0] + [sep] + Join(parts[1..], sep)
  }

  /** `s.split(sep)`: never empty, no piece holds the separator, and joining
      the pieces back gives `s`. */
  function Split(s: string, sep: char): (parts: seq<string>)
    ensures |parts| >= 1
    ensures forall i :: 0 <= i < |parts| ==> sep !in parts[i]
    ensures Join(parts, sep) == s
    decreases |s|
  {
    if s == [] then [""]
    else
      var rest := Split(s[1..], sep);
      if s[0] == sep then
        assert s == [sep] + Join(rest, sep);
        [""] + rest
      else
        var parts := [[s[0]] + rest[0]] + rest[1..];
        assert parts[1..] == rest[1..];
        parts
  }

  /** A string without the separator splits into itself alone. */
  lemma {:induction false} SplitWithoutSeparator(s: string, sep: char)
    requires sep !in s
    ensures Split(s, sep) == [s]
    decreases |s|
  {
    if s != [] {
      SplitWithoutSeparator(s[1..], sep);
    }
  }

  /** Splitting at a first separator. */
  lemma {:induction false} SplitAtFirst(a: string, b: string, sep: char)
    requires sep !in a
    ensures Split(a + [sep] + b, sep) == [a] + Split(b, sep)
    decreases |a|
  {
    var s := a + [sep] + b;
    if a == [] {
      assert s[0] == sep && s[1..] == b;
    } else {
      assert s[0] == a[0] && s[1..] == a[1..] + [sep] + b;
      SplitAtFirst(a[1..], b, sep);
      assert [a[0]] + a[1..] == a;
    }
  }

  /** The other round trip: pieces free of the separator come back from
      splitting their join. */
  lemma {:induction false} SplitJoin(parts: seq<string>, sep: char)
    requires |parts| >= 1
    requires forall i :: 0 <= i < |parts| ==> sep !in parts[i]
    ensures Split(Join(parts, sep), sep) == parts
    decreases |parts|
  {
    if |parts| == 1 {
      SplitWithoutSeparator(parts[0], sep);
    } else {
      SplitJoin(parts[1..], sep);
      SplitAtFirst(parts[0], Join(parts[1..], sep), sep);
      assert [parts[0]] + parts[1..] == parts;
    }
  }

  /** Joining splits off the last piece after the last separator. */
  lemma {:induction false} JoinLast(parts: seq<string>, sep: char)
    requires |parts| >= 2
    ensures Join(parts, sep) == Join(parts[..|parts| - 1], sep) + [sep] + parts[|parts| - 1]
    decreases |parts|
  {
    if |parts| > 2 {
      JoinLast(parts[1..], sep);
      assert parts[1..][..|parts| - 2] == parts[..|parts| - 1][1..];
    }
  }

  /** `name.split(".").pop()` */
  function LastPart(name: string): (r: string)
    ensures '.' !in r
    ensures '.' !in name ==> r == name
  {
    var parts := Split(name, '.');
    if '.' in name then parts[|parts| - 1]
    else SplitWithoutSeparator(name, '.'); parts[|parts| - 1]
  }

  /** The last piece is the text after the last dot, or the whole name when
      it has no dot. */
  lemma LastPartIsAfterLastDot(name: string)
    ensures var last := LastPart(name);
            && |last| <= |name|
            && last == name[|name| - |last|..]
            && '.' !in last
            && (|last| == |name| || name[|name| - |last| - 1] == '.')
  {
    var parts := Split(name, '.');
    var last := parts[|parts| - 1];
    assert '.' !in last;
    if |parts| == 1 {
      assert name == last;
    } else {
      JoinLast(parts, '.');
      var init := Join(parts[..|parts| - 1], '.');
      assert name == init + ['.'] + last;
      assert name[|name| - |last|..] == last;
      assert name[|name| - |last| - 1] == '.';
    }
  }

  /** Text after the last dot is all the last piece can be. */
  lemma AfterLastDotIsLastPart(name: string, i: nat)
    requires i < |name| && name[i] == '.' && '.' !in name[i + 1..]
    ensures LastPart(name) == name[i + 1..]
  {
    LastPartIsAfterLastDot(name);
  }

  /** `name.split(".").pop() || "jpg"`: a non-empty extension free of dots. */
  function Extension(name: string): (ext: string)
    ensures ext != "" && '.' !in ext
  {
    var last := LastPart(name);
    LastPartIsAfterLastDot(name);
    if last == "" then FallbackExtension else last
  }

  /** The extension is the text after the last dot, when there is some. */
  lemma ExtensionAfterLastDot(name: string, i: nat)
    requires i + 1 < |name| && name[i] == '.' && '.' !in name[i + 1..]
    ensures Extension(name) == name[i + 1..]
  {
    AfterLastDotIsLastPart(name, i);
  }

  /** A name without a dot is its own extension; "jpg" is not used. */
  lemma ExtensionWithoutDot(name: string)
    requires name != "" && '.' !in name
    ensures Extension(name) == name
  {
    SplitWithoutSeparator(name, '.');
  }

  /** An empty name, or one ending in a dot, gets the extension "jpg". */
  lemma ExtensionFallback(name: string)
    requires name == "" || name[|name| - 1] == '.'
    ensures Extension(name) == FallbackExtension
  {
    if name != "" {
      AfterLastDotIsLastPart(name, |name| - 1);
    }
  }

  /** The decimal digit for `d`. */
  function Digit(d: nat): char
    requires d < 10
  {
    (48 + d) as char
  }

  predicate IsDigits(s: string) {
    forall i :: 0 <= i < |s| ==> '0' <= s[i] <= '9'
  }

  /** A number in a template literal: its decimal digits, without leading
      zeros. */
  function DecimalString(n: nat): (s: string)
    ensures s != [] && IsDigits(s)
    ensures |s| > 1 ==> s[0] != '0'
    decreases n
  {
    if n < 10 then [Digit(n)] else DecimalString(n / 10) + [Digit(n % 10)]
  }

  /** The value of a string of decimal digits. */
  function DecimalValue(s: string): nat
    requires IsDigits(s)
    decreases |s|
  {
    if s == [] then 0
    else 10 * DecimalValue(s[..|s| - 1]) + (s[|s| - 1] as int - 48)
  }

  /** The timestamp can be read back from its digits. */
  lemma {:induction false} DecimalRoundTrip(n: nat)
    ensures DecimalValue(DecimalString(n)) == n
    decreases n
  {
    if n >= 10 {
      DecimalRoundTrip(n / 10);
      var s := DecimalString(n);
      assert s[..|s| - 1] == DecimalString(n / 10);
    }
  }

  /** `${folder}/${userId}/${Date.now()}.${ext}` */
  function ObjectPath(folder: Folder, userId: string, now: nat, fileName: string): (r: string)
    ensures var head := folder.Name() + "/" + userId + "/";
            |head| < |r| && r[..|head|] == head
    ensures var tail := "." + Extension(fileName);
            |tail| < |r| && r[|r| - |tail|..] == tail
  {
    folder.Name() + "/" + userId + "/" + DecimalString(now) + "." + Extension(fileName)
  }

  /** For a user id without a slash, the path splits into the folder, the
      user id, and the stamped file name. */
  lemma ObjectPathParts(folder: Folder, userId: string, now: nat, fileName: string)
    requires '/' !in userId && '/' !in fileName
    ensures Split(ObjectPath(folder, userId, now, fileName), '/')
         == [folder.Name(), userId, DecimalString(now) + "." + Extension(fileName)]
  {
    var last := DecimalString(now) + "." + Extension(fileName);
    var parts := [folder.Name(), userId, last];
    var digits, ext := DecimalString(now), Extension(fileName);
    assert '/' !in ext by {
      LastPartIsAfterLastDot(fileName);
    }
    assert '/' !in digits;
    assert '/' !in last;
    assert Join(parts, '/') == ObjectPath(folder, userId, now, fileName) by {
      assert parts[1..][1..] == [last];
      assert Join(parts[1..], '/') == userId + "/" + last;
    }
    SplitJoin(parts, '/');
  }

  /** The stored object keeps the file's extension. */
  lemma ObjectPathKeepsExtension(folder: Folder, userId: string, now: nat, fileName: string)
    ensures Extension(ObjectPath(folder, userId, now, fileName)) == Extension(fileName)
  {
    var path := ObjectPath(folder, userId, now, fileName);
    var ext := Extension(fileName);
    var i := |path| - |ext| - 1;
    assert path[i] == '.';
    assert path[i + 1..] == ext;
    ExtensionAfterLastDot(path, i);
  }

  /** `uploadImage(file, userId, folder)` at time `now`: the upload goes to
      the public bucket under the built path, without overwriting; a storage
      error is thrown and no URL is asked for; otherwise the public URL of
      that same path is returned. */
  function UploadImage(file: File, userId: string, folder: Folder, now: nat, storage: StorageService): (run: UploadRun)
    ensures |run.calls| >= 1
    ensures run.calls[0] == PutObject(Bucket, ObjectPath(folder, userId, now, file.name), file.mimeType, false)
    ensures run.result.Err? <==> storage.uploadError.Some?
    ensures run.result.Err? ==> run.result.message == storage.uploadError.value && |run.calls| == 1
    ensures run.result.Ok? ==> |run.calls| == 2 && run.calls[1] == GetPublicUrl(Bucket, run.calls[0].path)
    ensures run.result.Ok? ==> run.result.value == storage.publicUrl(run.calls[0].path)
  {
    var path := ObjectPath(folder, userId, now, file.name);
    var put := PutObject(Bucket, path, file.mimeType, false);
    match storage.uploadError
    case Some(e) => UploadRun([put], Err(e))
    case None => UploadRun([put, GetPublicUrl(Bucket, path)], Ok(storage.publicUrl(path)))
  }
}
